=== FILE: README.md ===
# PostgreSQL driver of the GixSQL runtime, modelled in Dafny

GixSQL lets COBOL programs run embedded SQL. At run time every statement goes
through a database driver. This project models the PostgreSQL driver
(`DbInterfacePGSQL`). It covers four pieces:

- **The placeholder rewriter.** It turns `?` and `:name` markers into
  PostgreSQL's `$1`, `$2`, ….
- **The host-variable decoder.** It reads a cursor's query text from a COBOL
  host variable.
- **The parameter marshaller.** It turns COBOL parameters into libpq's
  parameter arrays.
- **The driver's session state machine:**
  - plain and parameterised execution, with the autocommit emulation and the
    UPDATE/DELETE row check;
  - the prepared-statement table;
  - cursor declaration, opening, fetching (native and emulated) and closing;
  - reading result values into caller buffers;
  - positioning on the first record;
  - connecting, terminating and resetting.

The driver is an immutable record (`Session.Driver`). Each operation is a
pure function from a driver to a result code and a new driver. The record
holds:

- the ambient result slot;
- the prepared-statement table, keyed by lower-cased name;
- the declared-cursor table, keyed by the name as given;
- the error record (`last_rc`, `last_error`, `last_state`);
- the `decode_binary` and `use_native_cursors` flags;
- the cursor objects the caller shares with the driver;
- the log of native calls made.

The PostgreSQL server and libpq are an oracle (`Libpq.Server`). It answers
each native call given the calls made before it, so every property proved
here holds for any server behaviour. A native call made without a connection
gets a null result and never reaches the server, as libpq does with a null
connection handle.

Modules, in dependency order:

| module | file | contents |
|---|---|---|
| `Basics` | basics.dfy | options, ASCII character classes, decimal rendering, the helper environment |
| `Fixup` | fixup.dfy | the placeholder rewriter, against a position-wise reference definition |
| `HostRef` | hostref.dfy | the host-variable decoder |
| `Libpq` | libpq.dfy | results, native calls, the server oracle and libpq's accessors |
| `Params` | params.dfy | type mapping and parameter marshalling |
| `Session` | session.dfy | the driver state, native calls and the error record |
| `Execution` | exec.dfy | `_pgsql_exec`, `_pgsql_exec_params`, `prepare`, `exec_prepared` |
| `Cursors` | cursors.dfy | `cursor_declare`, `cursor_open`, `cursor_fetch_one`, `cursor_close` |
| `Values` | values.dfy | `get_resultset_value`, `move_to_first_record`, `get_num_fields` |
| `Connection` | connection.dfy | `init`, `connect`, `terminate_connection`, `reset` |
| `Join` | join.dfy | `vector_join` |
| `Lifecycle` | lifecycle.dfy | properties spanning several operations |

Several behaviours are modelled as the code has them:

- **`cursor_close` always succeeds.** Its `rc` from the CLOSE statement lands
  in an inner variable that shadows the returned one. So closing any
  non-null cursor reports success (`Cursors.CursorClose`).
- **Emulated fetching has no upper bound.** It advances the row index past
  the end and keeps reporting "no data" (`Cursors.FreshEmulatedCursor`).
- **Text values are copied with their terminating NUL.** A text value as
  long as the buffer therefore writes one byte more than the buffer's size
  (`Values.ReadCell` writes the text and a NUL, `valueLen + 1` bytes).
- **A quote toggles its own flag even inside the other kind of quote.** So
  `"'"?` leaves the `?` alone (`Fixup.QuoteInsideOtherQuoteToggles`).
- **Row counts come from `PQcmdTuples`.** An emulated cursor caches the
  count `PQcmdTuples` reported for the opening statement. The model keeps
  that count as a field of the reply, unrelated to the rows it carries.
- **`PQexecPrepared` gets no type array.** The parameter OIDs computed by the
  marshaller are therefore not sent; `Execution.Untyped` zeroes them.

## Model

| member | source | states |
|---|---|---|
| Basics.DecimalRoundTrip | runtime/libgixsql-pgsql/DbInterfacePGSQL.cpp:985 | the decimal text used for a placeholder number reads back as that number, so distinct placeholders get distinct `$n` |
| Basics.NatToDecimal | runtime/libgixsql-pgsql/DbInterfacePGSQL.cpp:985 | a placeholder number is written as a non-empty run of decimal digits with no leading zero |
| Basics.IntToDecimal | runtime/libgixsql-pgsql/DbInterfacePGSQL.cpp:147 | a port number is written with a minus sign exactly when it is negative, followed only by digits |
| Basics.IntDecimalRoundTrip | runtime/libgixsql-pgsql/DbInterfacePGSQL.cpp:147 | the text sent as the port reads back as the port number |
| Fixup.FixupParameters | runtime/libgixsql-pgsql/DbInterfacePGSQL.cpp:954-999 | the driver's single left-to-right loop produces exactly the concatenation of per-position pieces defined from quote parity and placeholder counts before each position |
| Fixup.StepMatchesPiece | runtime/libgixsql-pgsql/DbInterfacePGSQL.cpp:962-995 | one loop iteration turns the loop variables at position i into those at i+1 (counter, both quote flags, the name-skipping flag) and emits that position's piece |
| Fixup.RunMatchesPieces | runtime/libgixsql-pgsql/DbInterfacePGSQL.cpp:962-996 | running the loop from any position with the variables of that position yields the pieces of the rest of the input |
| Fixup.PieceCases | runtime/libgixsql-pgsql/DbInterfacePGSQL.cpp:965-993 | a quoted marker and every ordinary character are copied; an unquoted marker becomes `$k` with k the number of placeholders up to and including it; only alphanumerics directly after a placeholder are dropped |
| Fixup.CounterCountsPlaceholders | runtime/libgixsql-pgsql/DbInterfacePGSQL.cpp:982-987 | the counter is always one more than the placeholders seen so far and grows by exactly one at each placeholder, so numbering is 1, 2, 3, … |
| Fixup.FixupWithoutMarkersIsIdentity | runtime/libgixsql-pgsql/DbInterfacePGSQL.cpp:971-994 | text containing no `?` and no `:` comes back unchanged |
| Fixup.QuoteInsideOtherQuoteToggles | runtime/libgixsql-pgsql/DbInterfacePGSQL.cpp:972-980 | a single quote inside double quotes still toggles the single-quote flag, so a `?` after `"'"` is treated as quoted and kept |
| Fixup.NamedAndPositionalMarkers | runtime/libgixsql-pgsql/DbInterfacePGSQL.cpp:982-987 | a named host variable `:v` and a following `?` become `$1$2`, the name being dropped |
| HostRef.UpToNul | runtime/libgixsql-pgsql/DbInterfacePGSQL.cpp:924-925 | reading a C string gives the text strictly before the first NUL, which contains no NUL |
| HostRef.TrimmedHostRefOrLiteral | runtime/libgixsql-pgsql/DbInterfacePGSQL.cpp:919-942 | a null address gives the empty text; length 0 gives the NUL-terminated literal; a positive length gives the first `l` characters trimmed; a negative length gives the `-l - 2` characters after the length prefix, trimmed |
| HostRef.VarlenPrefixIgnored | runtime/libgixsql-pgsql/DbInterfacePGSQL.cpp:932-941 | the stored value of a variable-length prefix, and anything after the declared size, never changes the decoded text |
| HostRef.LiteralStopsAtNul | runtime/libgixsql-pgsql/DbInterfacePGSQL.cpp:924-925 | a literal is read up to its terminator whatever follows it |
| Params.PgType | runtime/libgixsql-pgsql/DbInterfacePGSQL.cpp:884-905 | 1700 is chosen exactly for the numeric COBOL types, 17 exactly for binary text, 1043 exactly for non-binary text, and 0 exactly for every other type |
| Params.Format | runtime/libgixsql-pgsql/DbInterfacePGSQL.cpp:509 | the transmission format is binary (1) exactly when the binary flag is set and text (0) otherwise |
| Params.BindFrom | runtime/libgixsql-pgsql/DbInterfacePGSQL.cpp:498-510 | the loop binds one parameter per value, in order; a DB_NULL length binds a null value of length 0, any other length binds that prefix of the value with that length, with the type and format of the same position |
| Params.Marshal | runtime/libgixsql-pgsql/DbInterfacePGSQL.cpp:485-510 | types, values and flags of different sizes are a count mismatch, and only they are; the lengths vector is not compared and a short one makes the bounds-checked read throw; otherwise every position is bound with its null-ness, value prefix, length, type and format |
| Session.NewResultSetData | runtime/libgixsql-pgsql/DbInterfacePGSQL.h:42-49 | a new result record holds the given result, sits before the first row (index -1) and caches no row count |
| Session.NewDriver | runtime/libgixsql-pgsql/DbInterfacePGSQL.h:87-115 | a new driver has no connection, options, result, cursor or prepared statement, made no native call, decodes binary data by default and uses native cursors |
| Execution.StartTransaction | runtime/libgixsql-pgsql/DbInterfacePGSQL.cpp:434-442 | starting the next transaction succeeds exactly when START TRANSACTION reports COMMAND_OK; only the log and error record change, and the error record becomes that reply's status, message and SQLSTATE |
| Execution.Classify | runtime/libgixsql-pgsql/DbInterfacePGSQL.cpp:428-469 | unless a COMMIT or ROLLBACK was intercepted, the reply is a success exactly when its status is COMMAND_OK or TUPLES_OK and it is not an UPDATE/DELETE that touched no rows; a success places the new result on the cursor or in the ambient slot and keeps the refreshed error record; a failure rewrites only the code, keeping the reply's message and SQLSTATE; a cursor's execution never touches the ambient slot or another cursor |
| Execution.AfterCall | runtime/libgixsql-pgsql/DbInterfacePGSQL.cpp:421-432 | the call is logged when connected; the error record becomes the reply's status, message and SQLSTATE; an intercepted COMMIT or ROLLBACK empties the ambient slot |
| Execution.ExecAndClassify | runtime/libgixsql-pgsql/DbInterfacePGSQL.cpp:421-469 | executing a statement leaves connection, options, flags, declared and prepared tables alone, logs the call first, and on plain success stores the reply with row position -1 |
| Execution.ExecOutcome | runtime/libgixsql-pgsql/DbInterfacePGSQL.cpp:524-564 | with autocommit off a COMMIT or ROLLBACK empties the ambient slot, and when it succeeds the outcome, and the error record, are those of the START TRANSACTION reply; otherwise success holds exactly for an accepted reply (COMMAND_OK or TUPLES_OK, not an UPDATE/DELETE touching no rows), places the result and leaves the reply's status, message and SQLSTATE in the error record; an UPDATE/DELETE touching no rows is an SQL error with code 100 storing nothing; any other status is an SQL error with code -(10000+status); both errors keep the reply's message and SQLSTATE |
| Execution.PgsqlExec | runtime/libgixsql-pgsql/DbInterfacePGSQL.cpp:410-471 | plain execution sends the query with no parameters; without a cursor the old ambient result is dropped, so after an error the slot is empty, and after a success that was not an intercepted COMMIT or ROLLBACK it holds this query's result; on behalf of a cursor the ambient slot is kept unless a COMMIT or ROLLBACK was intercepted |
| Execution.ExecVerdict | runtime/libgixsql-pgsql/DbInterfacePGSQL.cpp:421-469 | unless a COMMIT or ROLLBACK was intercepted, plain execution succeeds exactly when the reply is accepted, and then the reply sits, unpositioned, on the cursor or in the ambient slot |
| Execution.ExecQuery | runtime/libgixsql-pgsql/DbInterfacePGSQL.cpp:405-408 | `exec` never touches cursors or prepared statements and returns success or SQL error |
| Execution.PgsqlExecParams | runtime/libgixsql-pgsql/DbInterfacePGSQL.cpp:478-565 | a count mismatch, and only it, returns INTERNAL_ERR with the mismatch message before any native call; a short lengths vector, and only it, throws with nothing changed; a success or SQL error sent the query with the marshalled parameters; a success not intercepted stored the reply with its row count on the cursor or in the ambient slot; a cursor's execution keeps the ambient slot |
| Execution.ExecParamsVerdict | runtime/libgixsql-pgsql/DbInterfacePGSQL.cpp:512-564 | with counts that agree and lengths for every value, and no COMMIT or ROLLBACK intercepted, parameterised execution succeeds exactly when the reply is accepted, fails otherwise as an SQL error, and a success places the reply with its row count |
| Execution.ExecBound | runtime/libgixsql-pgsql/DbInterfacePGSQL.cpp:512-564 | once bound, the parameters are sent with the query as the next native call; a success not intercepted keeps the reply unpositioned with the row count it reports; without a cursor an error leaves the ambient slot empty |
| Execution.ExecParamsQuery | runtime/libgixsql-pgsql/DbInterfacePGSQL.cpp:473-476 | `exec_params` unless it throws never touches cursors or prepared statements |
| Execution.Prepare | runtime/libgixsql-pgsql/DbInterfacePGSQL.cpp:297-333 | an already known lower-cased name fails with no native call and nothing changed; otherwise the (optionally rewritten) SQL is prepared under that name, success iff COMMAND_OK, the error record becomes the reply's status, message and SQLSTATE either way, and success registers the name with no result |
| Execution.Untyped | runtime/libgixsql-pgsql/DbInterfacePGSQL.cpp:384 | the parameters sent to a prepared statement are the marshalled ones with no type given |
| Execution.ExecPrepared | runtime/libgixsql-pgsql/DbInterfacePGSQL.cpp:335-398 | an unknown name is an SQL error with nothing changed; a count mismatch is INTERNAL_ERR; a short lengths vector, and only it, throws; with bound parameters `PQexecPrepared` is the only call made, and the execution succeeds exactly when the reply is COMMAND_OK or TUPLES_OK, leaving the reply's status, message and SQLSTATE, and is an SQL error otherwise; success replaces only that name's result with the new reply; failure keeps the table and leaves code -(10000+status) with the reply's message and SQLSTATE |
| Cursors.CursorDeclare | runtime/libgixsql-pgsql/DbInterfacePGSQL.cpp:587-598 | a null cursor fails; otherwise the name joins the table, an existing entry is never overwritten, and a new name maps to this cursor |
| Cursors.DeclareIdempotent | runtime/libgixsql-pgsql/DbInterfacePGSQL.cpp:592-595 | declaring the same cursor again changes nothing |
| Cursors.OpenText | runtime/libgixsql-pgsql/DbInterfacePGSQL.cpp:608-615 | the cursor's literal query is used when non-empty, and the decoded host variable otherwise |
| Cursors.RetrievePreparedSource | runtime/libgixsql-pgsql/DbInterfacePGSQL.cpp:1037-1074 | a statement's source is found exactly when the catalog query succeeds with one row and a first field; any other row count is error 42704 naming the statement; otherwise the error record is the reply's |
| Cursors.ResolveQuery | runtime/libgixsql-pgsql/DbInterfacePGSQL.cpp:617-622 | a query starting with `@` is replaced by the source of the prepared statement it names; any other query is used as is with no native call |
| Cursors.OpenResolved | runtime/libgixsql-pgsql/DbInterfacePGSQL.cpp:624-650 | an empty query fails with code -1 and "Empty query" and nothing else changed; a count mismatch fails before any native call and a short lengths vector, and only it, throws; a successful open sent the (possibly DECLARE-wrapped) statement with the cursor's parameters and attached its reply to the cursor, unpositioned, with its row count; unless a COMMIT or ROLLBACK was intercepted the ambient slot is kept |
| Cursors.OpenVerdict | runtime/libgixsql-pgsql/DbInterfacePGSQL.cpp:643-650 | once the cursor's parameters are bound, the (possibly DECLARE-wrapped) statement is sent with them, and unless a COMMIT or ROLLBACK was intercepted the open succeeds exactly when the driver accepts the reply and is OPEN_CURSOR_FAILED otherwise |
| Cursors.CursorOpen | runtime/libgixsql-pgsql/DbInterfacePGSQL.cpp:600-651 | a null cursor fails; a query given directly is executed at once with no catalog lookup; opening only changes the opened cursor's result, the log and the error record (and, with autocommit off, possibly the ambient slot), and every failure reported by execution becomes OPEN_CURSOR_FAILED |
| Cursors.OpenOutcome | runtime/libgixsql-pgsql/DbInterfacePGSQL.cpp:600-651 | an empty query fails with "Empty query"; for `@name` a failed lookup fails the open with the lookup's error record (state 42704 unless the catalog has exactly one row) and executes nothing, while a found source is the query opened; a successful open of a direct query executed it, as `DECLARE name CURSOR [WITH HOLD] FOR q` in native mode |
| Cursors.CursorNumRows | runtime/libgixsql-pgsql/DbInterfacePGSQL.cpp:833-846 | the row count is -1 exactly when the cursor (or, without one, the ambient slot) holds no result record; a record with a null result counts 0 and any other counts what its reply reports |
| Cursors.FetchEmulated | runtime/libgixsql-pgsql/DbInterfacePGSQL.cpp:689-694 | an emulated fetch moves the cursor one row on and reports no data exactly when the new index is at or past the cached row count |
| Cursors.FetchNative | runtime/libgixsql-pgsql/DbInterfacePGSQL.cpp:662-688 | a native fetch sends FETCH RELATIVE 0/-1/1 on the cursor; unless intercepted, a rejected reply is an SQL error and an accepted one is attached to the cursor, giving NO_DATA for no rows, TOO_MUCH_DATA for several and success for exactly one; the ambient slot is kept |
| Cursors.CursorFetchOne | runtime/libgixsql-pgsql/DbInterfacePGSQL.cpp:653-697 | a null cursor fails; otherwise the fetch is native or emulated according to the driver's flag, changing nothing but the cursor's result, the log and the error record (and, for a native fetch with autocommit off, possibly the ambient slot) |
| Cursors.FetchAll | runtime/libgixsql-pgsql/DbInterfacePGSQL.cpp:653-697 | repeated fetches give one code per fetch and keep the cursor fetchable |
| Cursors.EmulatedFetchIndex | runtime/libgixsql-pgsql/DbInterfacePGSQL.cpp:691 | after k emulated fetches the row index has advanced by exactly k, without limit |
| Cursors.EmulatedFetchCodes | runtime/libgixsql-pgsql/DbInterfacePGSQL.cpp:690-694 | the i-th of a run of emulated fetches reports no data exactly when the starting index plus i+1 reaches the cached count |
| Cursors.FreshEmulatedCursor | runtime/libgixsql-pgsql/DbInterfacePGSQL.cpp:689-694 | from a fresh result record, fetch i succeeds exactly when i is below the row count, and once no data is reported it is reported forever |
| Cursors.EmulatedOpenThenFetch | runtime/libgixsql-pgsql/DbInterfacePGSQL.h:42-49 | a new result record starts before the first row, so an emulated cursor opened on a direct query yields exactly the row count its reply reports: fetch i succeeds iff i is below it and reports no data otherwise |
| Cursors.CursorClose | runtime/libgixsql-pgsql/DbInterfacePGSQL.cpp:568-585 | a null cursor fails; any other cursor closes with NO_ERROR and no result; a native one sends CLOSE and keeps the log, error record and ambient slot that CLOSE left, whatever it returned; an emulated one changes nothing else |
| Cursors.CloseIgnoresFailure | runtime/libgixsql-pgsql/DbInterfacePGSQL.cpp:575-584 | a CLOSE that fails still closes the cursor with NO_ERROR, with the ambient slot empty and the failed statement's error record kept |
| Cursors.NativeCursorLifecycle | runtime/libgixsql-pgsql/DbInterfacePGSQL.cpp:568-651 | a native cursor declared, opened, fetched any number of times and closed stays declared under its name, holds no result, and can be declared again with no effect |
| Values.ReadCell | runtime/libgixsql-pgsql/DbInterfacePGSQL.cpp:751-794 | a failed read writes nothing; a NULL sets the flag with length 0 and one NUL byte; a value read never exceeds the buffer, and everything written after it is zero bytes; text is written whole followed by its NUL, `valueLen + 1` bytes |
| Values.ReadCellContents | runtime/libgixsql-pgsql/DbInterfacePGSQL.cpp:757-794 | NULL sets the flag; text (or bytea with decoding off) is read exactly when it fits and is written exactly, followed by a NUL; decoded bytea is read exactly when it decodes and fits, comes back exactly, and fills the whole buffer |
| Values.Select | runtime/libgixsql-pgsql/DbInterfacePGSQL.cpp:707-744 | the context designates the ambient result, the prepared statement of that lower-cased name (none if unknown), or the cursor's result with its current row overriding the requested one |
| Values.GetResultsetValue | runtime/libgixsql-pgsql/DbInterfacePGSQL.cpp:699-795 | without a designated result the read fails with nothing written; otherwise the value is the designated field read into the buffer |
| Values.MoveToFirstRecord | runtime/libgixsql-pgsql/DbInterfacePGSQL.cpp:797-826 | succeeds exactly when the designated result exists and reports rows, changing nothing; a missing result is "Invalid statement reference"/HY000 and a result without rows is "No data"/02000 |
| Values.PreparedBeforeExecution | runtime/libgixsql-pgsql/DbInterfacePGSQL.cpp:815-818 | a prepared statement with no result yet cannot be positioned |
| Values.GetNumFields | runtime/libgixsql-pgsql/DbInterfacePGSQL.cpp:848-855 | the field count is -1 exactly when there is no result record |
| Connection.Init | runtime/libgixsql-pgsql/DbInterfacePGSQL.cpp:115-128 | `init` drops the connection and ambient result and zeroes code and state, keeping the message |
| Connection.PassThrough | runtime/libgixsql-pgsql/DbInterfacePGSQL.cpp:151-160 | exactly the allow-listed options present in the data source pass to libpq, with their values |
| Connection.ConnectionParams | runtime/libgixsql-pgsql/DbInterfacePGSQL.cpp:143-160 | libpq receives the five basic fields (port 0 as empty) plus the allow-listed options present, and no other key |
| Connection.OptionSwitch | runtime/libgixsql-pgsql/DbInterfacePGSQL.cpp:242-266 | an option switches a flag on exactly for "on", "1", "true" and off exactly for "off", "0", "false" |
| Connection.EncodingStep | runtime/libgixsql-pgsql/DbInterfacePGSQL.cpp:195-203 | with an encoding configured it is sent, and the step fails, with code 1 and libpq's message, exactly when `PQsetClientEncoding` returns non-zero; with none nothing happens |
| Connection.StatementStep | runtime/libgixsql-pgsql/DbInterfacePGSQL.cpp:206-240 | a setup statement is sent and continues exactly on COMMAND_OK, a failure leaving its status as the code |
| Connection.SessionSetup | runtime/libgixsql-pgsql/DbInterfacePGSQL.cpp:195-240 | setup only appends calls and, when it completes with autocommit off, its last call began a transaction |
| Connection.Establish | runtime/libgixsql-pgsql/DbInterfacePGSQL.cpp:195-273 | the driver is connected exactly on success, and only then are the options and flags taken over |
| Connection.OnReply | runtime/libgixsql-pgsql/DbInterfacePGSQL.cpp:182-273 | a null connection fails with "Connection failed"; a handle in a bad state fails with its status as the code and libpq's message; a good one goes on to setup, whose success takes over options and flags |
| Connection.Connect | runtime/libgixsql-pgsql/DbInterfacePGSQL.cpp:130-274 | `connect` leaves the driver connected exactly when it reports success, empties the ambient slot and keeps all tables |
| Connection.ConnectOutcome | runtime/libgixsql-pgsql/DbInterfacePGSQL.cpp:130-274 | the connection attempt is the first call; success leaves a clear error record, the new options and the flags switched by the options, with BEGIN last under autocommit off; failure keeps options and flags |
| Connection.FlagsChangeOnlyOnRecognisedSpelling | runtime/libgixsql-pgsql/DbInterfacePGSQL.h:38-40 | from a new driver, binary decoding is off, and native cursors are off, exactly when a successful connect read an "off" spelling for that option; otherwise the defaults (on) stay |
| Connection.TerminateConnection | runtime/libgixsql-pgsql/DbInterfacePGSQL.cpp:285-295 | termination always succeeds and leaves no connection and no ambient result |
| Connection.Reset | runtime/libgixsql-pgsql/DbInterfacePGSQL.cpp:276-283 | reset always succeeds with the effect of a termination |
| Connection.NoCallsAfterTerminate | runtime/libgixsql-pgsql/DbInterfacePGSQL.cpp:285-295 | after termination a statement reaches no server, fails as an SQL error with code -(10000+FATAL_ERROR) and leaves no ambient result |
| Join.VectorJoin | runtime/libgixsql-pgsql/DbInterfacePGSQL.cpp:1023-1034 | the loop yields the elements in order with one separator between neighbours and none at the ends |
| Join.SplitJoined | runtime/libgixsql-pgsql/DbInterfacePGSQL.cpp:1023-1034 | splitting the joined string at the separator gives the vector back when no element contains the separator |
| Join.JoinedLength | runtime/libgixsql-pgsql/DbInterfacePGSQL.cpp:1023-1034 | the joined length is the sum of the element lengths plus one per separator |
| Lifecycle.PrepareTwice | runtime/libgixsql-pgsql/DbInterfacePGSQL.cpp:304-306 | after a successful preparation, preparing the same name again fails at once with nothing changed |
| Lifecycle.PreparedHasNoResultYet | runtime/libgixsql-pgsql/DbInterfacePGSQL.cpp:330 | a freshly prepared statement can be neither positioned nor read |
| Lifecycle.ExecutedPreparedIsReadable | runtime/libgixsql-pgsql/DbInterfacePGSQL.cpp:390-391 | once executed, a prepared statement can be positioned exactly when its reply reports rows, and reads come from that reply |
| Lifecycle.ExecThenRead | runtime/libgixsql-pgsql/DbInterfacePGSQL.cpp:457-463 | after a successful plain execution, reads of the current result set see that execution's reply |

## Left out

- libpq and the server are an oracle. Result status, row counts, cell values, error fields and bytea unescaping are whatever the oracle returns.
- The helpers of `utils.h` are parameters of the model (`Basics.Env`): `to_lower`, `trim_copy`, `is_tx_termination_statement`, `is_update_or_delete_statement` and the `DB_NULL` sentinel. `utils.h` is not part of this model. `starts_with(s, "@")` and `isalnum` are written out for ASCII.
- The numeric values of the engine's `DBERR_*` codes and fetch modes are in headers that are not part of this model. They are a datatype (`Session.DbErr`, `Cursors.FetchMode`). `last_rc` is either a raw number or one of those codes (`Session.LastRc`).
- A parameter's flag word is only ever asked whether its binary bit is set, so flags are booleans.
- Logging through spdlog is left out. So is the logger set-up in `init`.
- `PQfinish` and `PQclear` free memory; they are not native calls in the log. Shared-pointer lifetimes and `pgsqlParamArray` ownership are plain values.
- `get_error_message`, `get_error_code` and `get_state` are left out. The last two read the error record directly; the first reads libpq's messages.
- `get_native_features` and `set_property` are left out. They return constants.
- The schema-manager methods (`getSchemas`, `getTables`, `getColumns`, `getIndexes`) are left out. Their bodies are not part of this model.
- The driver factory's dynamic library loading and the preprocessor front end are left out. They are OS loader calls and a CLI.
- Dereferences of null pointers are preconditions rather than modelled crashes:
  - an emulated fetch or cursor read with no result attached;
  - `connection_opts` before the first connect.
- Reads past a buffer's end are preconditions too:
  - `Params.MarshalReady`: when the counts agree, a non-NULL parameter length fits its value buffer;
  - `HostRef.Readable`: a host variable holds the bytes its length says, and a literal holds a NUL. It also asks a negative length to cover the two-byte prefix, which excludes length -1: there the source reads the two-byte prefix from a one-byte field (cpp:935) and then `std::string` throws `length_error` (cpp:940); the model represents neither.
- `_pgsql_exec` clears the ambient slot when a cursor's result is the very object in that slot. That sharing never arises from the driver's own operations, since a result record is stored in one place only, so the model leaves it out.
- Cursors.FetchEmulated: does not model 32-bit wrap-around of the row index. The index keeps growing as an unbounded integer.
- Values.ReadCell: the model's lengths are unbounded naturals. The source narrows `value_len` through `int`, which matters only for values over 2 GiB.
- Values.ReadCell: a NULL value writes one byte even into a zero-length buffer; the model records the byte written and not the buffer's size.
- Connection.Connect: the connection handle left over from an earlier connect is dropped without being closed, as in the source; the model does not track the leaked handle.
- The `pgsqlParamArray::assign` copy is modelled by its effect: the first `length` bytes of the value, as a NUL-terminated string.

=== FILE: basics.dfy ===
/** Small shared vocabulary: an option type, the C character classes the driver
    relies on, decimal rendering as done by std::to_string, and the helpers of the
    driver's utility header whose bodies are not part of this model. */
module Basics {

  datatype Option<T> = None | Some(value: T) {
    function GetOr(default: T): T {
      match this
      case Some(v) => v
      case None => default
    }
  }

  /** isalnum in the "C" locale. */
  predicate IsAlnum(c: char) {
    ('0' <= c <= '9') || ('a' <= c <= 'z') || ('A' <= c <= 'Z')
  }

  predicate IsDigit(c: char) {
    '0' <= c <= '9'
  }

  function DigitChar(d: nat): (c: char)
    requires d < 10
    ensures IsDigit(c)
  {
    "0123456789"[d]
  }

  function DigitValue(c: char): nat
    requires IsDigit(c)
  {
    (c as int) - ('0' as int)
  }

  /** std::to_string of a non-negative number. */
  function NatToDecimal(n: nat): (s: string)
    ensures |s| > 0
    ensures forall i :: 0 <= i < |s| ==> IsDigit(s[i])
    ensures |s| > 1 ==> s[0] != '0'
    decreases n
  {
    if n < 10 then [DigitChar(n)] else NatToDecimal(n / 10) + [DigitChar(n % 10)]
  }

  /** The number a string of decimal digits denotes. */
  function DecimalValue(s: string): nat
    requires forall i :: 0 <= i < |s| ==> IsDigit(s[i])
  {
    if s == [] then 0 else 10 * DecimalValue(s[..|s| - 1]) + DigitValue(s[|s| - 1])
  }

  /** std::to_string never loses information: reading the digits back gives the number. */
  lemma {:induction false} DecimalRoundTrip(n: nat)
    ensures DecimalValue(NatToDecimal(n)) == n
    decreases n
  {
    var s := NatToDecimal(n);
    if n >= 10 {
      DecimalRoundTrip(n / 10);
      assert s[..|s| - 1] == NatToDecimal(n / 10);
    }
  }

  /** std::to_string of any int: a minus sign exactly for a negative number,
      followed by digits. */
  function IntToDecimal(n: int): (s: string)
    ensures |s| > 0 && (s[0] == '-' <==> n < 0)
    ensures forall i :: (if n < 0 then 1 else 0) <= i < |s| ==> IsDigit(s[i])
  {
    if n < 0 then "-" + NatToDecimal(-n) else NatToDecimal(n)
  }

  /** The number a decimal text with an optional leading minus denotes. */
  function SignedDecimalValue(s: string): int
    requires forall i :: (if |s| > 0 && s[0] == '-' then 1 else 0) <= i < |s| ==> IsDigit(s[i])
  {
    if |s| > 0 && s[0] == '-' then -(DecimalValue(s[1..]) as int) else DecimalValue(s)
  }

  /** A minus sign in front of digits negates what they denote. */
  lemma NegatedDecimalValue(t: string)
    requires forall i :: 0 <= i < |t| ==> IsDigit(t[i])
    ensures SignedDecimalValue("-" + t) == -(DecimalValue(t) as int)
  {
    assert ("-" + t)[1..] == t;
  }

  /** Digits alone denote what they denote unsigned. */
  lemma UnsignedDecimalValue(t: string)
    requires |t| > 0 && forall i :: 0 <= i < |t| ==> IsDigit(t[i])
    ensures SignedDecimalValue(t) == DecimalValue(t)
  {
    assert IsDigit(t[0]);
  }

  /** std::to_string of an int reads back as that int. */
  lemma IntDecimalRoundTrip(n: int)
    ensures SignedDecimalValue(IntToDecimal(n)) == n
  {
    var t := NatToDecimal(if n < 0 then -n else n);
    DecimalRoundTrip(if n < 0 then -n else n);
    if n < 0 {
      NegatedDecimalValue(t);
    } else {
      UnsignedDecimalValue(t);
    }
  }

  predicate StartsWith(s: string, prefix: string) {
    |prefix| <= |s| && s[..|prefix|] == prefix
  }

  /** Definitions the driver takes from headers that are not part of this
      model: the string helpers of its utility header, whose exact case and
      whitespace rules cannot be read here, and the NULL-length sentinel. */
  datatype Env = Env(
    toLower: string -> string,
    trimCopy: string -> string,
    isTxTermination: string -> bool,
    isUpdateOrDelete: string -> bool,
    dbNull: nat)
}

=== FILE: connection.dfy ===
/** The connection life cycle: `init`, `connect` (connection parameters,
    client encoding, default schema, the initial transaction when autocommit
    is off, and the behaviour flags read from the data source's options),
    `terminate_connection` and `reset`. */
module Connection {
  import opened Basics
  import opened Libpq
  import opened Session
  import opened Execution

  /** What the caller's data source description provides. */
  datatype DataSourceInfo = DataSourceInfo(
    dbName: string,
    host: string,
    port: int,
    username: string,
    password: string,
    options: map<string, string>)

  /** Data source options passed through to libpq unchanged. */
  const LIBPQ_OPTIONS: seq<string> := [
    "hostaddr", "connect_timeout", "application_name", "keepalives", "keepalives_idle",
    "keepalives_interval", "keepalives_count", "sslmode", "requiressl", "sslcert", "sslkey",
    "sslrootcert", "sslcrl", "krbsrvname", "gsslib", "service"]

  const BEGIN_TRANSACTION := "BEGIN TRANSACTION"

  /** The spellings that switch an option on or off. */
  const ON_SPELLINGS: set<string> := {"on", "1", "true"}
  const OFF_SPELLINGS: set<string> := {"off", "0", "false"}

  /** `init`: no connection, no ambient result, return code 0 and an empty
      state; the error message is left as it was. */
  function Init(d: Driver): (r: (DbErr, Driver))
    ensures r.0 == NoError
    ensures r.1 == d.(connected := false, ambient := None, err := ErrorRecord(Raw(0), d.err.message, ""))
  {
    (NoError, d.(connected := false, ambient := None, err := d.err.(rc := Raw(0), state := "")))
  }

  /** The connection fields always passed to libpq. */
  const BASIC_KEYS: set<string> := {"dbname", "host", "port", "user", "password"}

  lemma BasicKeysNotOptions()
    ensures forall k :: k in LIBPQ_OPTIONS ==> k !in BASIC_KEYS
  {
  }

  /** The allow-listed options present in the data source. */
  function PassThrough(opts: map<string, string>): (m: map<string, string>)
    ensures m.Keys == set k | k in LIBPQ_OPTIONS && k in opts
    ensures forall k :: k in m ==> m[k] == opts[k]
  {
    map k | k in LIBPQ_OPTIONS && k in opts :: opts[k]
  }

  /** The keyword/value pairs handed to libpq: the five basic fields (a zero
      port as the empty string) plus the allow-listed options present in the
      data source; no other option reaches libpq. */
  function ConnectionParams(dsi: DataSourceInfo): (m: map<string, string>)
    ensures m.Keys == BASIC_KEYS + (set k | k in LIBPQ_OPTIONS && k in dsi.options)
    ensures m["dbname"] == dsi.dbName && m["host"] == dsi.host
    ensures m["user"] == dsi.username && m["password"] == dsi.password
    ensures m["port"] == (if dsi.port == 0 then "" else IntToDecimal(dsi.port))
    ensures forall k :: k in LIBPQ_OPTIONS && k in dsi.options ==> m[k] == dsi.options[k]
  {
    BasicKeysNotOptions();
    var base := map["dbname" := dsi.dbName, "host" := dsi.host,
                    "port" := if dsi.port == 0 then "" else IntToDecimal(dsi.port),
                    "user" := dsi.username, "password" := dsi.password];
    base + PassThrough(dsi.options)
  }

  /** A boolean option as `connect` reads it: Some(true) or Some(false) for a
      recognised spelling, None when the option is absent, empty or spelled
      any other way. */
  function OptionSwitch(opts: map<string, string>, key: string): (r: Option<bool>)
    ensures r == Some(true) <==> key in opts && opts[key] in ON_SPELLINGS
    ensures r == Some(false) <==> key in opts && opts[key] in OFF_SPELLINGS
  {
    if key !in opts || opts[key] == "" then None
    else if opts[key] in ON_SPELLINGS then Some(true)
    else if opts[key] in OFF_SPELLINGS then Some(false)
    else None
  }

  /** A flag after an option switch: unchanged when the option says nothing. */
  function Switched<T>(current: T, sw: Option<bool>, on: T, off: T): T {
    match sw
    case None => current
    case Some(b) => if b then on else off
  }

  /** The part of `connect` that can fail once a connection exists. */
  datatype Setup = Continue(d: Driver) | Fail(d: Driver)

  /** Set the client encoding if one is configured; a non-zero return fails
      the connection with code 1. */
  function EncodingStep(d: Driver, srv: Server, o: ConnOptions): (s: Setup)
    ensures s.d == d.(log := s.d.log, err := s.d.err)
    ensures o.clientEncoding == "" ==> s == Continue(d)
    ensures o.clientEncoding != "" ==> s.d.log == d.log + [SetClientEncoding(o.clientEncoding)]
    ensures s.Fail? ==> s.d.err.rc == Raw(1) && s.d.err.state == d.err.state
    ensures s.Continue? ==> s.d.err == d.err
    // the step fails exactly when PQsetClientEncoding returns non-zero
    ensures o.clientEncoding != "" ==>
              var res := Send(d, srv, SetClientEncoding(o.clientEncoding)).0;
              (s.Fail? <==> ResultStatus(res) != 0) && (s.Fail? ==> s.d.err.message == ErrorMessage(res))
  {
    if o.clientEncoding == "" then Continue(d)
    else
      var (res, d1) := Send(d, srv, SetClientEncoding(o.clientEncoding));
      if ResultStatus(res) != 0 then Fail(d1.(err := d1.err.(rc := Raw(1), message := ErrorMessage(res))))
      else Continue(d1)
  }

  /** A setup statement on the new connection; anything but COMMAND_OK fails
      the connection with the statement's status and diagnostics. */
  function StatementStep(d: Driver, srv: Server, query: string): (s: Setup)
    ensures s.d == d.(log := d.log + [Exec(query)], err := s.d.err)
    ensures s.Continue? <==> ResultStatus(srv.respond(d.log, Exec(query))) == PGRES_COMMAND_OK
    ensures s.Continue? ==> s.d.err == d.err
    ensures s.Fail? ==> s.d.err.rc == Raw(ResultStatus(srv.respond(d.log, Exec(query))))
  {
    var (res, d1) := Send(d, srv, Exec(query));
    if ResultStatus(res) != PGRES_COMMAND_OK then Fail(SetError(d1, Raw(ResultStatus(res)), SqlState(res), ErrorMessage(res)))
    else Continue(d1)
  }

  /** The default schema named in the data source's options, if non-empty. */
  function DefaultSchema(dsi: DataSourceInfo): Option<string> {
    if "default_schema" in dsi.options && dsi.options["default_schema"] != "" then Some(dsi.options["default_schema"])
    else None
  }

  /** Encoding, then search path, then the initial transaction. */
  function SessionSetup(d: Driver, srv: Server, dsi: DataSourceInfo, o: ConnOptions): (s: Setup)
    ensures s.d == d.(log := s.d.log, err := s.d.err)
    ensures |s.d.log| >= |d.log| && s.d.log[..|d.log|] == d.log
    ensures s.Continue? ==> s.d.err == d.err
    ensures s.Continue? && o.autocommit == AutoCommitOff ==>
              |s.d.log| > |d.log| && s.d.log[|s.d.log| - 1] == Exec(BEGIN_TRANSACTION)
  {
    match EncodingStep(d, srv, o)
    case Fail(d1) => Fail(d1)
    case Continue(d1) =>
      var s2 := match DefaultSchema(dsi)
                case None => Continue(d1)
                case Some(schema) => StatementStep(d1, srv, "set search_path to " + schema);
      match s2
      case Fail(d2) => Fail(d2)
      case Continue(d2) =>
        if o.autocommit == AutoCommitOff then StatementStep(d2, srv, BEGIN_TRANSACTION) else Continue(d2)
  }

  /** The rest of `connect` once libpq has returned a live connection: the
      session setup and, if it succeeds, the options and flags taken over. */
  function Establish(d: Driver, srv: Server, dsi: DataSourceInfo, o: ConnOptions): (r: (DbErr, Driver))
    ensures r.0 == NoError || r.0 == ConnectionFailed
    ensures r.1 == d.(log := r.1.log, err := r.1.err, connected := r.1.connected, opts := r.1.opts,
                      decodeBinary := r.1.decodeBinary, nativeCursors := r.1.nativeCursors)
    ensures r.1.connected <==> r.0 == NoError
    ensures |r.1.log| >= |d.log| && r.1.log[..|d.log|] == d.log
    ensures r.0 == NoError ==>
              && r.1.opts == Some(o)
              && r.1.err == d.err
              && r.1.decodeBinary == Switched(d.decodeBinary, OptionSwitch(dsi.options, "decode_binary"),
                                              DECODE_BINARY_ON, DECODE_BINARY_OFF)
              && r.1.nativeCursors == Switched(d.nativeCursors, OptionSwitch(dsi.options, "native_cursors"), true, false)
    ensures r.0 == NoError && o.autocommit == AutoCommitOff ==>
              |r.1.log| > |d.log| && r.1.log[|r.1.log| - 1] == Exec(BEGIN_TRANSACTION)
    ensures r.0 == ConnectionFailed ==>
              r.1.opts == d.opts && r.1.decodeBinary == d.decodeBinary && r.1.nativeCursors == d.nativeCursors
  {
    match SessionSetup(d, srv, dsi, o)
    case Fail(d1) => (ConnectionFailed, d1.(connected := false))
    case Continue(d1) =>
      (NoError, d1.(connected := true, opts := Some(o),
                    decodeBinary := Switched(d1.decodeBinary, OptionSwitch(dsi.options, "decode_binary"),
                                             DECODE_BINARY_ON, DECODE_BINARY_OFF),
                    nativeCursors := Switched(d1.nativeCursors, OptionSwitch(dsi.options, "native_cursors"), true, false)))
  }

  /** What `connect` does with libpq's answer to the connection attempt. */
  function OnReply(d: Driver, srv: Server, dsi: DataSourceInfo, o: ConnOptions, conn: Option<PgResult>): (r: (DbErr, Driver))
    requires !d.connected
    ensures r.0 == NoError || r.0 == ConnectionFailed
    ensures r.1 == d.(log := r.1.log, err := r.1.err, connected := r.1.connected, opts := r.1.opts,
                      decodeBinary := r.1.decodeBinary, nativeCursors := r.1.nativeCursors)
    ensures r.1.connected <==> r.0 == NoError
    ensures |r.1.log| >= |d.log| && r.1.log[..|d.log|] == d.log
    ensures conn.None? ==> r == (ConnectionFailed, d.(err := d.err.(rc := Engine(ConnectionFailed), message := "Connection failed")))
    // a handle in a bad state fails with libpq's status as the code and its message
    ensures conn.Some? && conn.value.status != CONNECTION_OK ==>
              r == (ConnectionFailed, d.(err := d.err.(rc := Raw(conn.value.status), message := conn.value.errorMessage)))
    ensures conn.Some? && conn.value.status == CONNECTION_OK ==> r == Establish(d, srv, dsi, o)
    ensures r.0 == NoError ==>
              && r.1.opts == Some(o)
              && r.1.err == d.err
              && r.1.decodeBinary == Switched(d.decodeBinary, OptionSwitch(dsi.options, "decode_binary"),
                                              DECODE_BINARY_ON, DECODE_BINARY_OFF)
              && r.1.nativeCursors == Switched(d.nativeCursors, OptionSwitch(dsi.options, "native_cursors"), true, false)
    ensures r.0 == NoError && o.autocommit == AutoCommitOff ==>
              |r.1.log| > |d.log| && r.1.log[|r.1.log| - 1] == Exec(BEGIN_TRANSACTION)
    ensures r.0 == ConnectionFailed ==>
              r.1.opts == d.opts && r.1.decodeBinary == d.decodeBinary && r.1.nativeCursors == d.nativeCursors
  {
    match conn
    case None =>
      (ConnectionFailed, d.(err := d.err.(rc := Engine(ConnectionFailed), message := "Connection failed")))
    case Some(c) =>
      if c.status != CONNECTION_OK then
        (ConnectionFailed, d.(err := d.err.(rc := Raw(c.status), message := c.errorMessage)))
      else Establish(d, srv, dsi, o)
  }

  /** `connect`: any earlier connection handle is dropped and the ambient
      result and error record are cleared first. The connection succeeds only
      if libpq returns a live connection and every setup statement succeeds;
      only then are the options and flags taken over. */
  function Connect(d: Driver, srv: Server, dsi: DataSourceInfo, o: ConnOptions): (r: (DbErr, Driver))
    ensures r.0 == NoError || r.0 == ConnectionFailed
    ensures r.1.connected <==> r.0 == NoError
    ensures r.1.declared == d.declared && r.1.prepared == d.prepared && r.1.cursors == d.cursors
    ensures r.1.ambient == None
  {
    var (conn, d1) := Send(Cleared(d), srv, ConnectCall(dsi));
    OnReply(d1, srv, dsi, o, conn)
  }

  /** The state `connect` starts from: no connection, no ambient result, a
      zeroed error record. */
  function Cleared(d: Driver): Driver {
    d.(connected := false, ambient := None, err := ErrorRecord(Raw(0), "", ""))
  }

  function ConnectCall(dsi: DataSourceInfo): NativeCall {
    NativeCall.Connect(ConnectionParams(dsi))
  }

  /** What a connection attempt leaves behind: the attempt is the first call
      made; a null connection is reported as such; on success the options are
      taken over, the error record is clear and the flags are switched by the
      data source's options, and with autocommit off the last call made
      began a transaction; on failure options and flags are as before. */
  lemma ConnectOutcome(d: Driver, srv: Server, dsi: DataSourceInfo, o: ConnOptions, r: (DbErr, Driver))
    requires r == Connect(d, srv, dsi, o)
    ensures |r.1.log| > |d.log| && r.1.log[..|d.log| + 1] == d.log + [ConnectCall(dsi)]
    ensures srv.respond(d.log, ConnectCall(dsi)).None? ==>
              r.0 == ConnectionFailed && r.1.err == ErrorRecord(Engine(ConnectionFailed), "Connection failed", "")
    ensures r.0 == NoError ==>
              && r.1.opts == Some(o)
              && r.1.err == ErrorRecord(Raw(0), "", "")
              && r.1.decodeBinary == Switched(d.decodeBinary, OptionSwitch(dsi.options, "decode_binary"),
                                              DECODE_BINARY_ON, DECODE_BINARY_OFF)
              && r.1.nativeCursors == Switched(d.nativeCursors, OptionSwitch(dsi.options, "native_cursors"), true, false)
    ensures r.0 == NoError && o.autocommit == AutoCommitOff ==> r.1.log[|r.1.log| - 1] == Exec(BEGIN_TRANSACTION)
    ensures r.0 == ConnectionFailed ==>
              r.1.opts == d.opts && r.1.decodeBinary == d.decodeBinary && r.1.nativeCursors == d.nativeCursors
  {
    var call := ConnectCall(dsi);
    var d1 := Cleared(d).(log := d.log + [call]);
    var conn := srv.respond(d.log, call);
    assert Send(Cleared(d), srv, call) == (conn, d1);
    assert r == OnReply(d1, srv, dsi, o, conn);
    assert r.1.log[..|d1.log|] == d1.log;
  }

  /** The behaviour flags keep their defaults (binary decoding on, native
      cursors) unless the data source spells the option exactly as one of
      the recognised values. */
  lemma FlagsChangeOnlyOnRecognisedSpelling(srv: Server, dsi: DataSourceInfo, o: ConnOptions)
    ensures var r := Connect(NewDriver(), srv, dsi, o);
            && (r.1.decodeBinary == DECODE_BINARY_OFF <==>
                  r.0 == NoError && "decode_binary" in dsi.options && dsi.options["decode_binary"] in OFF_SPELLINGS)
            && (r.1.decodeBinary == DECODE_BINARY_ON <==> r.1.decodeBinary != DECODE_BINARY_OFF)
            && (!r.1.nativeCursors <==>
                  r.0 == NoError && "native_cursors" in dsi.options && dsi.options["native_cursors"] in OFF_SPELLINGS)
  {
    ConnectOutcome(NewDriver(), srv, dsi, o, Connect(NewDriver(), srv, dsi, o));
  }

  /** `terminate_connection`: the handle is closed and the ambient result
      dropped; nothing can fail. */
  function TerminateConnection(d: Driver): (r: (DbErr, Driver))
    ensures r.0 == NoError
    ensures !r.1.connected && r.1.ambient == None
    ensures r.1 == d.(connected := false, ambient := None)
  {
    (NoError, d.(connected := false, ambient := None))
  }

  /** `reset`: a termination, reported as ConnResetFailed if it failed, which
      it never does. */
  function Reset(d: Driver): (r: (DbErr, Driver))
    ensures r.0 == NoError && r.1 == TerminateConnection(d).1
  {
    var (rc, d1) := TerminateConnection(d);
    (if rc == NoError then NoError else ConnResetFailed, d1)
  }

  /** After termination no statement reaches the server: libpq refuses the
      null connection, so the statement fails as a fatal error without a
      native call being made. */
  lemma NoCallsAfterTerminate(d: Driver, srv: Server, env: Env, query: string)
    requires d.opts.Some?
    ensures var d1 := TerminateConnection(d).1;
            var r := ExecQuery(d1, srv, env, query);
            && r.0 == SqlError
            && r.1.log == d.log
            && r.1.ambient == None
            && r.1.err.rc == Raw(-(10000 + PGRES_FATAL_ERROR))
  {
    var d1 := TerminateConnection(d).1;
    ExecOutcome(d1, srv, env, None, query, ExecParams(query, []), false, ExecQuery(d1, srv, env, query));
  }
}

=== FILE: cursors.dfy ===
/** Cursors: declaration into the driver's table, opening (with the query
    taken from a literal, a host variable or the source of a prepared
    statement), fetching in native or emulated mode, and closing. */
module Cursors {
  import opened Basics
  import opened Libpq
  import opened Params
  import opened Session
  import opened Execution
  import opened HostRef

  /** Fetch directions; any mode other than current and previous row fetches
      the next row. */
  datatype FetchMode = FetchCurRow | FetchPrevRow | FetchNextRow | FetchOther(code: int)

  const PREPARED_SOURCE_QUERY := "select statement from pg_prepared_statements where lower(name) = lower($1)"

  // ---------------------------------------------------------------------------
  // Declare
  // ---------------------------------------------------------------------------

  /** `cursor_declare`: the cursor is registered under its name unless that
      name is already taken, in which case the earlier cursor stays. */
  function CursorDeclare(d: Driver, crsr: Option<CursorRef>): (r: (DbErr, Driver))
    requires ValidCursor(d, crsr)
    ensures crsr.None? ==> r == (DeclareCursorFailed, d)
    ensures crsr.Some? ==> r.0 == NoError
    ensures r.1 == d.(declared := r.1.declared)
    // an existing entry is never overwritten
    ensures forall k :: k in d.declared ==> k in r.1.declared && r.1.declared[k] == d.declared[k]
    ensures crsr.Some? ==>
              var name := d.cursors[crsr.value].name;
              && r.1.declared.Keys == d.declared.Keys + {name}
              && (name !in d.declared ==> r.1.declared[name] == crsr.value)
    ensures crsr.None? ==> r.1.declared == d.declared
  {
    match crsr
    case None => (DeclareCursorFailed, d)
    case Some(c) =>
      var name := d.cursors[c].name;
      if name in d.declared then (NoError, d)
      else (NoError, d.(declared := d.declared[name := c]))
  }

  /** Declaring the same cursor twice is the same as declaring it once. */
  lemma DeclareIdempotent(d: Driver, c: CursorRef)
    requires c in d.cursors
    ensures var d1 := CursorDeclare(d, Some(c)).1;
            CursorDeclare(d1, Some(c)) == (NoError, d1)
  {
  }

  // ---------------------------------------------------------------------------
  // Open
  // ---------------------------------------------------------------------------

  /** The cursor's query text before any prepared-statement lookup: the literal,
      or, when that is empty, the text decoded from the host variable. */
  function OpenText(env: Env, cur: Cursor): (q: string)
    requires cur.query == "" ==> Readable(cur.source, cur.sourceLen)
    ensures cur.query != "" ==> q == cur.query
    ensures cur.query == "" ==> q == TrimmedHostRefOrLiteral(env, cur.source, cur.sourceLen)
  {
    if |cur.query| == 0 then TrimmedHostRefOrLiteral(env, cur.source, cur.sourceLen) else cur.query
  }

  /** The catalog query that fetches a prepared statement's source; the name
      travels as its only (text) parameter. */
  function LookupCall(name: string): NativeCall {
    ExecParams(PREPARED_SOURCE_QUERY, [BoundParam(Some(name), |name|, 0, 0)])
  }

  /** `retrieve_prepared_statement_source`: the source is found only when the
      catalog query returns exactly one row with a first column. */
  function RetrievePreparedSource(d: Driver, srv: Server, name: string): (r: (Option<string>, Driver))
    ensures r.1 == d.(log := r.1.log, err := r.1.err)
    ensures d.connected ==> r.1.log == d.log + [LookupCall(name)]
    ensures !d.connected ==> r.1.log == d.log
    ensures var res := Call(d, srv, LookupCall(name)).0;
            && (r.0.Some? <==> ResultStatus(res) == PGRES_TUPLES_OK && NTuples(res.value) == 1 && GetValue(res, 0, 0).Some?)
            && (r.0.Some? ==> r.0 == GetValue(res, 0, 0))
            && (ResultStatus(res) == PGRES_TUPLES_OK && NTuples(res.value) != 1 ==>
                  r.1.err == ErrorRecord(Raw(42704), "\"" + name + "\" not found", "42704"))
            && (!(ResultStatus(res) == PGRES_TUPLES_OK && NTuples(res.value) != 1) ==>
                  r.1.err == ErrorRecord(Raw(ResultStatus(res)), ErrorMessage(res), SqlState(res)))
  {
    var (res, d1) := Call(d, srv, LookupCall(name));
    var d2 := RecordResult(d1, res);
    if ResultStatus(res) != PGRES_TUPLES_OK then (None, d2)
    else if NTuples(res.value) != 1 then
      (None, SetError(d2, Raw(42704), "42704", "\"" + name + "\" not found"))
    else (GetValue(res, 0, 0), d2)
  }

  /** The query a cursor opens: its own text, or the source of the prepared
      statement it names with a leading '@'. None when that lookup fails. */
  function ResolveQuery(d: Driver, srv: Server, env: Env, cur: Cursor): (r: (Option<string>, Driver))
    requires cur.query == "" ==> Readable(cur.source, cur.sourceLen)
    ensures r.1 == d.(log := r.1.log, err := r.1.err)
    ensures var q := OpenText(env, cur);
            && (!StartsWith(q, "@") ==> r == (Some(q), d))
            && (StartsWith(q, "@") ==> r == RetrievePreparedSource(d, srv, q[1..]))
  {
    var q := OpenText(env, cur);
    if StartsWith(q, "@") then RetrievePreparedSource(d, srv, q[1..]) else (Some(q), d)
  }

  /** What `cursor_open` needs of a cursor object: a readable host variable when
      there is no literal and, when a non-empty query is about to be executed
      with parameter vectors of agreeing counts, length fields that fit their
      values. */
  predicate OpenReady(d: Driver, srv: Server, env: Env, cur: Cursor) {
    && (cur.query == "" ==> Readable(cur.source, cur.sourceLen))
    && var q := ResolveQuery(d, srv, env, cur).0;
       q.Some? && q.value != "" ==>
         MarshalReady(cur.paramTypes, cur.paramValues, cur.paramLengths, cur.paramBinary, env.dbNull)
  }

  /** The statement sent for a native cursor. */
  function DeclareText(name: string, withHold: bool, q: string): string {
    if withHold then "DECLARE " + name + " CURSOR WITH HOLD FOR " + q
    else "DECLARE " + name + " CURSOR FOR " + q
  }

  /** The statement `cursor_open` executes for query `q`. */
  function OpenStatement(d: Driver, cur: Cursor, q: string): string {
    if d.nativeCursors then DeclareText(cur.name, cur.withHold, q) else q
  }

  /** The execution step of `cursor_open` for the resolved query `q`. */
  function OpenResolved(d: Driver, srv: Server, env: Env, c: CursorRef, cur: Cursor, q: string): (r: Step)
    requires d.opts.Some? && c in d.cursors
    requires q != "" ==> MarshalReady(cur.paramTypes, cur.paramValues, cur.paramLengths, cur.paramBinary, env.dbNull)
    ensures r.out in {Returned(NoError), Returned(OpenCursorFailed), Raised}
    ensures !Trapped(d, env, OpenStatement(d, cur, q)) ==> r.d.ambient == d.ambient
    // the count check and the marshalling come before any native call
    ensures q != "" && !CountsAgree(cur.paramTypes, cur.paramValues, cur.paramBinary) ==>
              r == Step(Returned(OpenCursorFailed), d.(err := d.err.(rc := Engine(InternalErr), message := MISMATCH_MESSAGE)))
    ensures q != "" ==>
              (r.out == Raised <==> CountsAgree(cur.paramTypes, cur.paramValues, cur.paramBinary)
                                    && |cur.paramLengths| < |cur.paramValues|)
    ensures ExecFrame(d, r.d) && r.d.prepared == d.prepared && CursorsFrame(d, r.d, Some(c))
    ensures q == "" ==> r == Step(Returned(OpenCursorFailed), d.(err := d.err.(rc := Raw(-1), message := "Empty query")))
    ensures r.out == Returned(NoError) && d.connected ==>
              var m := Marshal(cur.paramTypes, cur.paramValues, cur.paramLengths, cur.paramBinary, env.dbNull);
              m.Bound? && |r.d.log| > |d.log| && r.d.log[|d.log|] == ExecParams(OpenStatement(d, cur, q), m.params)
    // the cursor now holds the reply, unpositioned, with the row count it reports
    ensures r.out == Returned(NoError) && !Trapped(d, env, OpenStatement(d, cur, q)) ==>
              var m := Marshal(cur.paramTypes, cur.paramValues, cur.paramLengths, cur.paramBinary, env.dbNull);
              && m.Bound?
              && var res := Call(d, srv, ExecParams(OpenStatement(d, cur, q), m.params)).0;
                 c in r.d.cursors && r.d.cursors[c].privateData == Some(ResultSetData(res, -1, NumRows(res)))
  {
    if |q| == 0 then
      Step(Returned(OpenCursorFailed), d.(err := d.err.(rc := Raw(-1), message := "Empty query")))
    else
      var s := PgsqlExecParams(d, srv, env, Some(c), OpenStatement(d, cur, q),
                               cur.paramTypes, cur.paramValues, cur.paramLengths, cur.paramBinary);
      if s.out == Raised then s
      else Step(Returned(if s.out == Returned(NoError) then NoError else OpenCursorFailed), s.d)
  }

  /** When `cursor_open` succeeds: once the cursor's parameters are bound the
      (possibly DECLARE-wrapped) statement is sent with them, and unless a
      COMMIT or ROLLBACK was intercepted the open succeeds exactly when the
      driver accepts the reply, and fails with OpenCursorFailed otherwise. */
  lemma OpenVerdict(d: Driver, srv: Server, env: Env, c: CursorRef, cur: Cursor, q: string, r: Step)
    requires d.opts.Some? && c in d.cursors
    requires q != "" ==> MarshalReady(cur.paramTypes, cur.paramValues, cur.paramLengths, cur.paramBinary, env.dbNull)
    requires r == OpenResolved(d, srv, env, c, cur, q)
    ensures q != "" && CountsAgree(cur.paramTypes, cur.paramValues, cur.paramBinary)
            && |cur.paramLengths| >= |cur.paramValues| ==>
              var m := Marshal(cur.paramTypes, cur.paramValues, cur.paramLengths, cur.paramBinary, env.dbNull);
              && m.Bound?
              && (d.connected ==> |r.d.log| > |d.log| && r.d.log[|d.log|] == ExecParams(OpenStatement(d, cur, q), m.params))
              && var res := Call(d, srv, ExecParams(OpenStatement(d, cur, q), m.params)).0;
                 !(Trapped(d, env, OpenStatement(d, cur, q)) && ResultStatus(res) == PGRES_COMMAND_OK) ==>
                   && (r.out == Returned(NoError) <==> Accepted(env, OpenStatement(d, cur, q), res))
                   && (r.out != Returned(NoError) ==> r.out == Returned(OpenCursorFailed))
  {
    if q != "" {
      var s := PgsqlExecParams(d, srv, env, Some(c), OpenStatement(d, cur, q),
                               cur.paramTypes, cur.paramValues, cur.paramLengths, cur.paramBinary);
      ExecParamsVerdict(d, srv, env, Some(c), OpenStatement(d, cur, q),
                        cur.paramTypes, cur.paramValues, cur.paramLengths, cur.paramBinary, s);
    }
  }

  /** `cursor_open`: resolve the query, refuse an empty one, then execute it
      (wrapped in DECLARE for a native cursor) on behalf of the cursor, so
      that its result is attached to the cursor. Every failure the execution
      reports becomes OpenCursorFailed; an escaping exception propagates. */
  function CursorOpen(d: Driver, srv: Server, env: Env, crsr: Option<CursorRef>): (r: Step)
    requires d.opts.Some? && ValidCursor(d, crsr)
    requires crsr.Some? ==> OpenReady(d, srv, env, d.cursors[crsr.value])
    ensures crsr.None? ==> r == Step(Returned(OpenCursorFailed), d)
    ensures r.out in {Returned(NoError), Returned(OpenCursorFailed), Raised}
    ensures ExecFrame(d, r.d) && r.d.prepared == d.prepared && CursorsFrame(d, r.d, crsr)
    // only an intercepted COMMIT or ROLLBACK (autocommit off) touches the ambient slot
    ensures d.opts.value.autocommit != AutoCommitOff ==> r.d.ambient == d.ambient
    // a query given directly is executed at once, with no catalog lookup
    ensures crsr.Some? && !StartsWith(OpenText(env, d.cursors[crsr.value]), "@") ==>
              r == OpenResolved(d, srv, env, crsr.value, d.cursors[crsr.value], OpenText(env, d.cursors[crsr.value]))
  {
    match crsr
    case None => Step(Returned(OpenCursorFailed), d)
    case Some(c) =>
      var cur := d.cursors[c];
      var (resolved, d1) := ResolveQuery(d, srv, env, cur);
      match resolved
      case None => Step(Returned(OpenCursorFailed), d1)
      case Some(q) => OpenResolved(d1, srv, env, c, cur, q)
  }

  /** How `cursor_open` ends: an empty query fails before any native call; a
      named prepared statement that the catalog does not hold exactly once
      fails with SQLSTATE 42704; a successful open of a query given directly
      executed it, wrapped in DECLARE for a native cursor. */
  lemma OpenOutcome(d: Driver, srv: Server, env: Env, c: CursorRef, r: Step)
    requires d.opts.Some? && c in d.cursors && OpenReady(d, srv, env, d.cursors[c])
    requires r == CursorOpen(d, srv, env, Some(c))
    ensures OpenText(env, d.cursors[c]) == "" ==>
              r == Step(Returned(OpenCursorFailed), d.(err := d.err.(rc := Raw(-1), message := "Empty query")))
    ensures StartsWith(OpenText(env, d.cursors[c]), "@") ==>
              var name := OpenText(env, d.cursors[c])[1..];
              var res := Call(d, srv, LookupCall(name)).0;
              ResultStatus(res) == PGRES_TUPLES_OK && NTuples(res.value) != 1 ==>
                r.out == Returned(OpenCursorFailed) && r.d.err.state == "42704" && r.d.cursors == d.cursors
    ensures r.out == Returned(NoError) && d.connected ==>
              var cur := d.cursors[c];
              var q := OpenText(env, cur);
              var m := Marshal(cur.paramTypes, cur.paramValues, cur.paramLengths, cur.paramBinary, env.dbNull);
              !StartsWith(q, "@") ==>
                m.Bound? && |r.d.log| > |d.log| && r.d.log[|d.log|] == ExecParams(OpenStatement(d, cur, q), m.params)
    // `@name`: a failed lookup fails the open with the lookup's error record and
    // nothing executed; a found source is the query that is opened
    ensures StartsWith(OpenText(env, d.cursors[c]), "@") ==>
              var lk := RetrievePreparedSource(d, srv, OpenText(env, d.cursors[c])[1..]);
              && (lk.0.None? ==> r == Step(Returned(OpenCursorFailed), lk.1))
              && (lk.0.Some? ==> r == OpenResolved(lk.1, srv, env, c, d.cursors[c], lk.0.value))
  {
    var cur := d.cursors[c];
    var q := OpenText(env, cur);
    if !StartsWith(q, "@") {
      assert ResolveQuery(d, srv, env, cur) == (Some(q), d);
      assert r == OpenResolved(d, srv, env, c, cur, q);
    }
  }

  // ---------------------------------------------------------------------------
  // Fetch
  // ---------------------------------------------------------------------------

  /** The statement a native fetch sends. */
  function FetchQuery(name: string, mode: FetchMode): string {
    match mode
    case FetchCurRow => "FETCH RELATIVE 0 FROM " + name
    case FetchPrevRow => "FETCH RELATIVE -1 FROM " + name
    case _ => "FETCH RELATIVE 1 FROM " + name
  }

  /** `get_num_rows` for a cursor (or, without one, the ambient slot): -1 with
      no result record; a record whose result is null reads as 0, the value of
      atoi on the empty string libpq then reports. */
  function CursorNumRows(d: Driver, crsr: Option<CursorRef>): (n: int)
    requires ValidCursor(d, crsr)
    ensures n >= -1
    ensures var wk := if crsr.Some? then d.cursors[crsr.value].privateData else d.ambient;
            && (n == -1 <==> wk.None?)
            && (wk.Some? && wk.value.resultset.Some? ==> n == wk.value.resultset.value.cmdTuples)
            && (wk.Some? && wk.value.resultset.None? ==> n == 0)
  {
    var wk := if crsr.Some? then d.cursors[crsr.value].privateData else d.ambient;
    match wk
    case None => -1
    case Some(rs) => if rs.resultset.None? then 0 else NumRows(rs.resultset)
  }

  /** What a fetch needs: a connection configuration for a native cursor, a
      result record for an emulated one (the driver dereferences it). */
  predicate FetchReady(d: Driver, crsr: Option<CursorRef>) {
    && ValidCursor(d, crsr)
    && (crsr.Some? && d.nativeCursors ==> d.opts.Some?)
    && (crsr.Some? && !d.nativeCursors ==> d.cursors[crsr.value].privateData.Some?)
  }

  /** The emulated fetch: advance the cursor's row index, past the end
      without limit. */
  function FetchEmulated(d: Driver, c: CursorRef): (r: (DbErr, Driver))
    requires c in d.cursors && d.cursors[c].privateData.Some?
    ensures var rs := d.cursors[c].privateData.value;
            && r.1 == d.(cursors := r.1.cursors)
            && CursorsFrame(d, r.1, Some(c))
            && c in r.1.cursors && r.1.cursors[c].privateData == Some(rs.(currentRowIndex := rs.currentRowIndex + 1))
            && (r.0 == NoData <==> rs.currentRowIndex + 1 >= rs.numRows)
            && (r.0 == NoError <==> rs.currentRowIndex + 1 < rs.numRows)
  {
    var rs := d.cursors[c].privateData.value;
    var rs' := rs.(currentRowIndex := rs.currentRowIndex + 1);
    (if rs'.currentRowIndex >= rs'.numRows then NoData else NoError, SetPrivateData(d, c, Some(rs')))
  }

  /** The native fetch: run the FETCH statement on behalf of the cursor and
      judge by the row count of its result. */
  function FetchNative(d: Driver, srv: Server, env: Env, c: CursorRef, mode: FetchMode): (r: (DbErr, Driver))
    requires d.opts.Some? && c in d.cursors
    ensures ExecFrame(d, r.1) && r.1.prepared == d.prepared && CursorsFrame(d, r.1, Some(c))
    ensures r.0 in {SqlError, NoData, TooMuchData, NoError}
    ensures d.connected ==> |r.1.log| > |d.log| && r.1.log[|d.log|] == ExecParams(FetchQuery(d.cursors[c].name, mode), [])
    ensures r.0 == SqlError ==> r.1.err.rc == Engine(SqlError)
    ensures r.0 != SqlError ==>
              && r.1.err.rc == Engine(NoError)
              && (r.0 == NoData <==> CursorNumRows(r.1, Some(c)) < 1)
              && (r.0 == TooMuchData <==> CursorNumRows(r.1, Some(c)) > 1)
              && (r.0 == NoError <==> CursorNumRows(r.1, Some(c)) == 1)
    // unless the FETCH itself was intercepted as a transaction end, the reply
    // decides: a rejected reply is an SQL error, an accepted one is attached to
    // the cursor and its row count picks the code
    ensures !Trapped(d, env, FetchQuery(d.cursors[c].name, mode)) ==>
              var res := Call(d, srv, ExecParams(FetchQuery(d.cursors[c].name, mode), [])).0;
              && r.1.ambient == d.ambient
              && (r.0 == SqlError <==> !Accepted(env, FetchQuery(d.cursors[c].name, mode), res))
              && (r.0 != SqlError ==>
                    && res.Some?
                    && c in r.1.cursors && r.1.cursors[c].privateData == Some(ResultSetData(res, -1, 0))
                    && (r.0 == NoData <==> NumRows(res) < 1)
                    && (r.0 == TooMuchData <==> NumRows(res) > 1)
                    && (r.0 == NoError <==> NumRows(res) == 1))
  {
    var q := FetchQuery(d.cursors[c].name, mode);
    var e := PgsqlExec(d, srv, env, Some(c), q);
    ExecVerdict(d, srv, env, Some(c), q, e);
    var (rc, d1) := e;
    var d2 := SetRc(d1, Engine(rc));
    if rc != NoError then (SqlError, d2)
    else
      var n := CursorNumRows(d2, Some(c));
      (if n < 1 then NoData else if n > 1 then TooMuchData else NoError, d2)
  }

  /** `cursor_fetch_one`. */
  function CursorFetchOne(d: Driver, srv: Server, env: Env, crsr: Option<CursorRef>, mode: FetchMode): (r: (DbErr, Driver))
    requires FetchReady(d, crsr)
    ensures crsr.None? ==> r == (FetchRowFailed, d)
    ensures crsr.Some? && d.nativeCursors ==> r == FetchNative(d, srv, env, crsr.value, mode)
    ensures crsr.Some? && !d.nativeCursors ==> r == FetchEmulated(d, crsr.value)
    ensures ExecFrame(d, r.1) && r.1.prepared == d.prepared && CursorsFrame(d, r.1, crsr)
    // only an intercepted COMMIT or ROLLBACK (autocommit off) touches the ambient slot
    ensures crsr.Some? && d.nativeCursors && d.opts.value.autocommit != AutoCommitOff ==> r.1.ambient == d.ambient
    ensures crsr.Some? && !d.nativeCursors ==> r.1.ambient == d.ambient
  {
    match crsr
    case None => (FetchRowFailed, d)
    case Some(c) => if d.nativeCursors then FetchNative(d, srv, env, c, mode) else FetchEmulated(d, c)
  }

  /** A run of fetches on one cursor: the codes returned, in order, and the
      final state. */
  function FetchAll(d: Driver, srv: Server, env: Env, c: CursorRef, modes: seq<FetchMode>): (r: (seq<DbErr>, Driver))
    requires FetchReady(d, Some(c))
    ensures |r.0| == |modes|
    ensures ExecFrame(d, r.1) && r.1.prepared == d.prepared && CursorsFrame(d, r.1, Some(c))
    ensures FetchReady(r.1, Some(c))
    decreases |modes|
  {
    if modes == [] then ([], d)
    else
      var (rc, d1) := CursorFetchOne(d, srv, env, Some(c), modes[0]);
      var (rest, d2) := FetchAll(d1, srv, env, c, modes[1..]);
      ([rc] + rest, d2)
  }

  /** The code of the emulated fetch that moves a cursor positioned as in `rs`
      forward by k + 1 rows. */
  function EmulatedCode(rs: ResultSetData, k: nat): DbErr {
    if rs.currentRowIndex + k + 1 >= rs.numRows then NoData else NoError
  }

  /** Emulated fetching walks the cached result: after k fetches the row
      index has advanced by k, with no upper limit. */
  lemma {:induction false} EmulatedFetchIndex(d: Driver, srv: Server, env: Env, c: CursorRef, modes: seq<FetchMode>)
    requires !d.nativeCursors && FetchReady(d, Some(c))
    ensures var rs := d.cursors[c].privateData.value;
            FetchAll(d, srv, env, c, modes).1.cursors[c].privateData
              == Some(rs.(currentRowIndex := rs.currentRowIndex + |modes|))
    decreases |modes|
  {
    if modes != [] {
      var d1 := FetchEmulated(d, c).1;
      assert FetchAll(d, srv, env, c, modes).1 == FetchAll(d1, srv, env, c, modes[1..]).1;
      EmulatedFetchIndex(d1, srv, env, c, modes[1..]);
    }
  }

  /** Each emulated fetch reports NoData exactly when the index it reached
      is at or past the cached row count, and NoError otherwise. */
  lemma {:induction false} EmulatedFetchCodes(d: Driver, srv: Server, env: Env, c: CursorRef, modes: seq<FetchMode>)
    requires !d.nativeCursors && FetchReady(d, Some(c))
    ensures var rs := d.cursors[c].privateData.value;
            var codes := FetchAll(d, srv, env, c, modes).0;
            forall i :: 0 <= i < |modes| ==> codes[i] == EmulatedCode(rs, i)
    decreases |modes|
  {
    if modes != [] {
      var rs := d.cursors[c].privateData.value;
      var (rc, d1) := FetchEmulated(d, c);
      var rest := FetchAll(d1, srv, env, c, modes[1..]).0;
      var codes := FetchAll(d, srv, env, c, modes).0;
      assert codes == [rc] + rest;
      EmulatedFetchCodes(d1, srv, env, c, modes[1..]);
      forall i | 1 <= i < |modes|
        ensures codes[i] == EmulatedCode(rs, i)
      {
        assert codes[i] == rest[i - 1];
      }
    }
  }

  /** A freshly opened emulated cursor yields exactly its cached number of rows:
      fetch number i (counting from 0) succeeds exactly when i < numRows,
      and once a fetch reports NoData every later one does too. */
  lemma FreshEmulatedCursor(d: Driver, srv: Server, env: Env, c: CursorRef, modes: seq<FetchMode>)
    requires !d.nativeCursors && c in d.cursors
    requires d.cursors[c].privateData.Some? && d.cursors[c].privateData.value.currentRowIndex == -1
    ensures var n := d.cursors[c].privateData.value.numRows;
            var codes := FetchAll(d, srv, env, c, modes).0;
            && (forall i :: 0 <= i < |modes| ==> (codes[i] == NoError <==> i < n))
            && (forall i :: 0 <= i < |modes| ==> (codes[i] == NoData <==> i >= n))
            && (forall i, j :: 0 <= i <= j < |modes| && codes[i] == NoData ==> codes[j] == NoData)
  {
    EmulatedFetchCodes(d, srv, env, c, modes);
  }

  /** An emulated cursor opened on a query given directly yields exactly the
      rows its reply reports: the new result record starts before the first
      row, so fetch number i (counting from 0) succeeds exactly when i is
      below that count, and reports no data otherwise. */
  lemma EmulatedOpenThenFetch(d: Driver, srv: Server, env: Env, c: CursorRef, modes: seq<FetchMode>)
    requires d.opts.Some? && !d.nativeCursors && c in d.cursors && OpenReady(d, srv, env, d.cursors[c])
    requires !StartsWith(OpenText(env, d.cursors[c]), "@") && !Trapped(d, env, OpenText(env, d.cursors[c]))
    requires CursorOpen(d, srv, env, Some(c)).out == Returned(NoError)
    ensures var cur := d.cursors[c];
            var m := Marshal(cur.paramTypes, cur.paramValues, cur.paramLengths, cur.paramBinary, env.dbNull);
            var d1 := CursorOpen(d, srv, env, Some(c)).d;
            && m.Bound?
            && FetchReady(d1, Some(c))
            && var res := Call(d, srv, ExecParams(OpenText(env, cur), m.params)).0;
               var codes := FetchAll(d1, srv, env, c, modes).0;
               forall i :: 0 <= i < |modes| ==>
                 (codes[i] == NoError <==> i < NumRows(res)) && (codes[i] == NoData <==> i >= NumRows(res))
  {
    var cur := d.cursors[c];
    var q := OpenText(env, cur);
    assert ResolveQuery(d, srv, env, cur) == (Some(q), d);
    var r := CursorOpen(d, srv, env, Some(c));
    assert r == OpenResolved(d, srv, env, c, cur, q);
    FreshEmulatedCursor(r.d, srv, env, c, modes);
  }

  // ---------------------------------------------------------------------------
  // Close
  // ---------------------------------------------------------------------------

  /** `cursor_close`: a native cursor is closed on the server through `exec`,
      whose code is discarded (it lands in an inner variable that shadows the
      one returned), so any cursor closes with NoError; the result record
      is detached either way. */
  function CursorClose(d: Driver, srv: Server, env: Env, crsr: Option<CursorRef>): (r: (DbErr, Driver))
    requires ValidCursor(d, crsr)
    requires crsr.Some? && d.nativeCursors ==> d.opts.Some?
    ensures crsr.None? ==> r == (CloseCursorFailed, d)
    ensures crsr.Some? ==> r.0 == NoError && crsr.value in r.1.cursors && r.1.cursors[crsr.value].privateData.None?
    ensures r.1.declared == d.declared && r.1.prepared == d.prepared && ExecFrame(d, r.1)
    ensures CursorsFrame(d, r.1, crsr)
    ensures crsr.Some? && d.nativeCursors && d.connected ==>
              |r.1.log| > |d.log| && r.1.log[|d.log|] == ExecParams("CLOSE " + d.cursors[crsr.value].name, [])
    ensures crsr.Some? && !d.nativeCursors ==>
              r.1 == d.(cursors := d.cursors[crsr.value := d.cursors[crsr.value].(privateData := None)])
    // a native close leaves exactly what its CLOSE statement left in the log,
    // the error record and the ambient slot, whatever that statement returned
    ensures crsr.Some? && d.nativeCursors ==>
              var e := ExecQuery(d, srv, env, "CLOSE " + d.cursors[crsr.value].name).1;
              r.1.log == e.log && r.1.err == e.err && r.1.ambient == e.ambient
  {
    if crsr.None? then (CloseCursorFailed, d)
    else
      var c := crsr.value;
      var d1 := if d.nativeCursors then ExecQuery(d, srv, env, "CLOSE " + d.cursors[c].name).1 else d;
      var d2 := if d1.cursors[c].privateData.Some? then SetPrivateData(d1, c, None) else d1;
      (NoError, d2)
  }

  /** A failed CLOSE does not fail `cursor_close`: it still returns NoError,
      the ambient slot is empty and the error record is the one the failed
      statement left behind. */
  lemma CloseIgnoresFailure(d: Driver, srv: Server, env: Env, c: CursorRef)
    requires d.nativeCursors && d.opts.Some? && c in d.cursors
    ensures var e := ExecQuery(d, srv, env, "CLOSE " + d.cursors[c].name);
            var r := CursorClose(d, srv, env, Some(c));
            e.0 == SqlError ==> r.0 == NoError && r.1.ambient == None && r.1.err == e.1.err
  {
  }

  /** A native cursor's life: declared under a free name, opened, fetched any
      number of times and closed, it stays in the table and no longer holds a
      result; declaring it again changes nothing. */
  lemma NativeCursorLifecycle(d: Driver, srv: Server, env: Env, c: CursorRef, modes: seq<FetchMode>)
    requires d.nativeCursors && d.opts.Some? && c in d.cursors
    requires d.cursors[c].name !in d.declared
    requires OpenReady(CursorDeclare(d, Some(c)).1, srv, env, d.cursors[c])
    ensures var d1 := CursorDeclare(d, Some(c)).1;
            var d2 := CursorOpen(d1, srv, env, Some(c)).d;
            var d3 := FetchAll(d2, srv, env, c, modes).1;
            var r := CursorClose(d3, srv, env, Some(c));
            && r.0 == NoError
            && r.1.declared == d.declared[d.cursors[c].name := c]
            && r.1.cursors[c].privateData.None?
            && r.1.cursors[c].name == d.cursors[c].name
            && CursorDeclare(r.1, Some(c)) == (NoError, r.1)
  {
  }
}

=== FILE: exec.dfy ===
/** Statement execution: direct and parameterised execution with the
    autocommit emulation and the update/delete row check, and the
    prepared-statement table. */
module Execution {
  import opened Basics
  import opened Libpq
  import opened Params
  import opened Session
  import Fixup

  /** A call either returns a code or lets an exception escape (the bounds
      checked read of a too-short lengths vector). */
  datatype Outcome = Returned(code: DbErr) | Raised

  datatype Step = Step(out: Outcome, d: Driver)

  const MISMATCH_MESSAGE := "Internal error: parameter count mismatch"
  const START_TRANSACTION := "START TRANSACTION"

  /** With autocommit off, a COMMIT or ROLLBACK is intercepted. */
  predicate Trapped(d: Driver, env: Env, query: string)
    requires d.opts.Some?
  {
    d.opts.value.autocommit == AutoCommitOff && env.isTxTermination(query)
  }

  /** Put a successful result where it belongs: on the cursor if one is given,
      otherwise in the ambient slot. */
  function Store(d: Driver, crsr: Option<CursorRef>, rs: ResultSetData): Driver
    requires ValidCursor(d, crsr)
  {
    match crsr
    case None => d.(ambient := Some(rs))
    case Some(c) => SetPrivateData(d, c, Some(rs))
  }

  /** `rs` is where `Store` puts it: on the cursor, or in the ambient slot. */
  predicate Placed(d': Driver, crsr: Option<CursorRef>, rs: ResultSetData) {
    match crsr
    case None => d'.ambient == Some(rs)
    case Some(c) => c in d'.cursors && d'.cursors[c].privateData == Some(rs)
  }

  /** `rs` went where `Store` puts it, and the other slot is as before. */
  predicate Stored(d: Driver, d': Driver, crsr: Option<CursorRef>, rs: ResultSetData) {
    Placed(d', crsr, rs) && (crsr.Some? ==> d'.ambient == d.ambient)
  }

  /** The driver's verdict on the reply to a statement it did not intercept:
      COMMAND_OK or TUPLES_OK, except an UPDATE or DELETE that touched no rows. */
  predicate Accepted(env: Env, query: string, res: Option<PgResult>) {
    var st := ResultStatus(res);
    && (st == PGRES_COMMAND_OK || st == PGRES_TUPLES_OK)
    && !(st == PGRES_COMMAND_OK && env.isUpdateOrDelete(query) && NumRows(res) <= 0)
  }

  /** Begin the next transaction after an intercepted COMMIT or ROLLBACK. */
  function StartTransaction(d: Driver, srv: Server): (r: (DbErr, Driver))
    ensures r.0 == NoError <==> ResultStatus(Call(d, srv, Exec(START_TRANSACTION)).0) == PGRES_COMMAND_OK
    ensures r.0 == NoError || r.0 == SqlError
    ensures r.1 == d.(log := r.1.log, err := r.1.err)
    ensures d.connected ==> r.1.log == d.log + [Exec(START_TRANSACTION)]
    ensures !d.connected ==> r.1.log == d.log
    // the error record is refreshed from the START TRANSACTION reply
    ensures var res := Call(d, srv, Exec(START_TRANSACTION)).0;
            r.1.err == ErrorRecord(Raw(ResultStatus(res)), ErrorMessage(res), SqlState(res))
  {
    var (r, d1) := Call(d, srv, Exec(START_TRANSACTION));
    (if ResultStatus(r) != PGRES_COMMAND_OK then SqlError else NoError, RecordResult(d1, r))
  }

  /** What the driver does with the reply `res` to a statement; `d` already
      carries the refreshed error record and, for an intercepted COMMIT or
      ROLLBACK, the cleared ambient slot. */
  function Classify(d: Driver, srv: Server, env: Env, crsr: Option<CursorRef>, query: string,
                    res: Option<PgResult>, rs: ResultSetData, trapped: bool): (r: (DbErr, Driver))
    requires ValidCursor(d, crsr)
    ensures r.1 == d.(log := r.1.log, err := r.1.err, ambient := r.1.ambient, cursors := r.1.cursors)
    ensures CursorsFrame(d, r.1, crsr)
    ensures r.0 == NoError || r.0 == SqlError
    ensures |r.1.log| >= |d.log| && r.1.log[..|d.log|] == d.log
    ensures r.0 == NoError && !trapped ==>
              && ResultStatus(res) in {PGRES_COMMAND_OK, PGRES_TUPLES_OK}
              && Stored(d, r.1, crsr, rs)
    // unless a COMMIT or ROLLBACK was intercepted, the verdict decides, and a
    // success places the result and leaves the error record as the call set it
    ensures !(trapped && ResultStatus(res) == PGRES_COMMAND_OK) ==>
              && (r.0 == NoError <==> Accepted(env, query, res))
              && (r.0 == NoError ==> Placed(r.1, crsr, rs) && r.1.err == d.err)
    // a failure rewrites only the code: message and SQLSTATE stay those of the reply
    ensures r.0 == SqlError && !(trapped && ResultStatus(res) == PGRES_COMMAND_OK) ==>
              r.1.err.message == d.err.message && r.1.err.state == d.err.state
    ensures crsr.Some? ==> r.1.ambient == d.ambient
  {
    var status := ResultStatus(res);
    if trapped && status == PGRES_COMMAND_OK then
      StartTransaction(d, srv)
    else if status == PGRES_COMMAND_OK && env.isUpdateOrDelete(query) && NumRows(res) <= 0 then
      (SqlError, SetRc(d, Raw(100)))
    else if status == PGRES_COMMAND_OK || status == PGRES_TUPLES_OK then
      (NoError, Store(d, crsr, rs))
    else
      (SqlError, SetRc(d, Raw(-(10000 + status))))
  }

  /** Send one statement and classify what comes back. `countRows` says whether
      the new result record caches the row count (parameterised execution
      does, plain execution does not). */
  function ExecAndClassify(d: Driver, srv: Server, env: Env, crsr: Option<CursorRef>, query: string,
                           call: NativeCall, countRows: bool): (r: (DbErr, Driver))
    requires d.opts.Some? && ValidCursor(d, crsr)
    ensures ExecFrame(d, r.1) && r.1.prepared == d.prepared && CursorsFrame(d, r.1, crsr)
    ensures r.0 == NoError || r.0 == SqlError
    ensures d.connected ==> |r.1.log| > |d.log| && r.1.log[|d.log|] == call
    // a success that was not intercepted stores the new result on the cursor or in the ambient slot
    ensures r.0 == NoError && !Trapped(d, env, query) ==>
              var res := Call(d, srv, call).0;
              && ResultStatus(res) in {PGRES_COMMAND_OK, PGRES_TUPLES_OK}
              && Stored(d, r.1, crsr, ResultSetData(res, -1, if countRows then NumRows(res) else 0))
    ensures crsr.Some? && !Trapped(d, env, query) ==> r.1.ambient == d.ambient
  {
    var d3 := AfterCall(d, srv, env, query, call);
    var res := Call(d, srv, call).0;
    var rs := ResultSetData(res, -1, if countRows then NumRows(res) else 0);
    Classify(d3, srv, env, crsr, query, res, rs, Trapped(d, env, query))
  }

  /** The state right after the call: log extended, error record refreshed
      and, for an intercepted COMMIT or ROLLBACK, the ambient slot cleared. */
  function AfterCall(d: Driver, srv: Server, env: Env, query: string, call: NativeCall): (d3: Driver)
    requires d.opts.Some?
    ensures d3 == d.(log := d3.log, err := d3.err, ambient := d3.ambient)
    ensures d.connected ==> d3.log == d.log + [call]
    ensures !d.connected ==> d3.log == d.log
    ensures d3.ambient == if Trapped(d, env, query) then None else d.ambient
    ensures var res := Call(d, srv, call).0;
            d3.err == ErrorRecord(Raw(ResultStatus(res)), ErrorMessage(res), SqlState(res))
  {
    var (res, d1) := Call(d, srv, call);
    var d2 := RecordResult(d1, res);
    if Trapped(d, env, query) then d2.(ambient := None) else d2
  }

  /** How `ExecAndClassify` treats the reply to its call. */
  lemma ExecOutcome(d: Driver, srv: Server, env: Env, crsr: Option<CursorRef>, query: string,
                    call: NativeCall, countRows: bool, r: (DbErr, Driver))
    requires d.opts.Some? && ValidCursor(d, crsr)
    requires r == ExecAndClassify(d, srv, env, crsr, query, call, countRows)
    // COMMIT/ROLLBACK with autocommit off: the ambient slot is cleared, and only
    // a new result of the statement itself can end up there
    ensures Trapped(d, env, query) && r.0 == SqlError ==> r.1.ambient == None
    // ... and when it succeeded, the outcome is that of the new transaction's start
    ensures Trapped(d, env, query) && ResultStatus(Call(d, srv, call).0) == PGRES_COMMAND_OK ==>
              var d1 := Call(d, srv, call).1.(ambient := None);
              (r.0 == NoError <==> ResultStatus(Call(d1, srv, Exec(START_TRANSACTION)).0) == PGRES_COMMAND_OK)
              && (d.connected ==> r.1.log == d.log + [call, Exec(START_TRANSACTION)])
              && r.1.cursors == d.cursors && r.1.ambient == None
              && var sres := Call(d1, srv, Exec(START_TRANSACTION)).0;
                 r.1.err == ErrorRecord(Raw(ResultStatus(sres)), ErrorMessage(sres), SqlState(sres))
    // an UPDATE/DELETE that touched no rows is an error with code 100 and stores nothing
    ensures !Trapped(d, env, query) && ResultStatus(Call(d, srv, call).0) == PGRES_COMMAND_OK
            && env.isUpdateOrDelete(query) && NumRows(Call(d, srv, call).0) <= 0 ==>
              r.0 == SqlError && r.1.err.rc == Raw(100)
              && r.1.err.message == ErrorMessage(Call(d, srv, call).0)
              && r.1.err.state == SqlState(Call(d, srv, call).0)
              && r.1.ambient == d.ambient && r.1.cursors == d.cursors
    // any other status is an SQL error, normalised as -(10000 + status)
    ensures var st := ResultStatus(Call(d, srv, call).0);
            st != PGRES_COMMAND_OK && st != PGRES_TUPLES_OK ==>
              r.0 == SqlError && r.1.err.rc == Raw(-(10000 + st)) && r.1.cursors == d.cursors
              && r.1.err.message == ErrorMessage(Call(d, srv, call).0)
              && r.1.err.state == SqlState(Call(d, srv, call).0)
              && (!Trapped(d, env, query) ==> r.1.ambient == d.ambient)
    // otherwise the verdict decides: an accepted reply is a success that places
    // the new result and leaves the reply's status, message and SQLSTATE
    ensures var res := Call(d, srv, call).0;
            var st := ResultStatus(res);
            !(Trapped(d, env, query) && st == PGRES_COMMAND_OK) ==>
              && (r.0 == NoError <==> Accepted(env, query, res))
              && (r.0 == NoError ==>
                    && Placed(r.1, crsr, ResultSetData(res, -1, if countRows then NumRows(res) else 0))
                    && r.1.err == ErrorRecord(Raw(st), ErrorMessage(res), SqlState(res)))
  {
  }

  /** `_pgsql_exec`: plain execution, on behalf of a cursor or of the ambient slot.
      Without a cursor the previous ambient result is dropped before the call. */
  function PgsqlExec(d: Driver, srv: Server, env: Env, crsr: Option<CursorRef>, query: string): (r: (DbErr, Driver))
    requires d.opts.Some? && ValidCursor(d, crsr)
    ensures ExecFrame(d, r.1) && r.1.prepared == d.prepared && CursorsFrame(d, r.1, crsr)
    ensures r.0 == NoError || r.0 == SqlError
    ensures d.connected ==> |r.1.log| > |d.log| && r.1.log[|d.log|] == ExecParams(query, [])
    ensures crsr.None? && r.0 == SqlError ==> r.1.ambient == None
    ensures crsr.None? && r.1.ambient.Some? ==>
              r.1.ambient.value.resultset == Call(d, srv, ExecParams(query, [])).0 && r.1.ambient.value.numRows == 0
    ensures crsr.Some? && !Trapped(d, env, query) ==> r.1.ambient == d.ambient
    ensures r.0 == NoError && !Trapped(d, env, query) ==>
              Stored(d, r.1, crsr, ResultSetData(Call(d, srv, ExecParams(query, [])).0, -1, 0))
  {
    var d0 := if crsr.None? then d.(ambient := None) else d;
    ExecAndClassify(d0, srv, env, crsr, query, ExecParams(query, []), false)
  }

  /** `exec`. */
  function ExecQuery(d: Driver, srv: Server, env: Env, query: string): (r: (DbErr, Driver))
    requires d.opts.Some?
    ensures r.1.cursors == d.cursors && r.1.prepared == d.prepared && ExecFrame(d, r.1)
    ensures r.0 == NoError || r.0 == SqlError
  {
    PgsqlExec(d, srv, env, None, query)
  }

  /** `_pgsql_exec_params`: the parameter count check comes before anything
      else and makes no native call; marshalling may throw on a short lengths
      vector, before the ambient slot is touched. */
  function PgsqlExecParams(d: Driver, srv: Server, env: Env, crsr: Option<CursorRef>, query: string,
                           types: seq<CobolVarType>, values: seq<string>, lengths: seq<nat>, binary: seq<bool>): (r: Step)
    requires d.opts.Some? && ValidCursor(d, crsr)
    requires MarshalReady(types, values, lengths, binary, env.dbNull)
    ensures !CountsAgree(types, values, binary) ==>
              r == Step(Returned(InternalErr), d.(err := d.err.(rc := Engine(InternalErr), message := MISMATCH_MESSAGE)))
    ensures CountsAgree(types, values, binary) && |lengths| < |values| ==> r == Step(Raised, d)
    ensures r.out == Raised <==> CountsAgree(types, values, binary) && |lengths| < |values|
    ensures r.out != Raised ==> ExecFrame(d, r.d) && r.d.prepared == d.prepared && CursorsFrame(d, r.d, crsr)
    ensures r.out.Returned? ==> r.out.code in {NoError, SqlError, InternalErr}
    ensures r.out == Returned(InternalErr) ==> !CountsAgree(types, values, binary)
    ensures r.out == Returned(NoError) || r.out == Returned(SqlError) ==>
              var m := Marshal(types, values, lengths, binary, env.dbNull);
              m.Bound? && (d.connected ==> |r.d.log| > |d.log| && r.d.log[|d.log|] == ExecParams(query, m.params))
    ensures crsr.None? && r.out == Returned(SqlError) ==> r.d.ambient == None
    ensures crsr.Some? && !Trapped(d, env, query) ==> r.d.ambient == d.ambient
    ensures r.out == Returned(NoError) && !Trapped(d, env, query) ==>
              var m := Marshal(types, values, lengths, binary, env.dbNull);
              && m.Bound?
              && var res := Call(d, srv, ExecParams(query, m.params)).0;
                 Stored(d, r.d, crsr, ResultSetData(res, -1, NumRows(res)))
  {
    match Marshal(types, values, lengths, binary, env.dbNull)
    case CountMismatch =>
      Step(Returned(InternalErr), d.(err := d.err.(rc := Engine(InternalErr), message := MISMATCH_MESSAGE)))
    case LengthOutOfRange => Step(Raised, d)
    case Bound(ps) =>
      var (rc, d1) := ExecBound(d, srv, env, crsr, query, ps);
      Step(Returned(rc), d1)
  }

  /** Parameterised execution once the parameters are bound. */
  function ExecBound(d: Driver, srv: Server, env: Env, crsr: Option<CursorRef>, query: string,
                     ps: seq<BoundParam>): (r: (DbErr, Driver))
    requires d.opts.Some? && ValidCursor(d, crsr)
    ensures ExecFrame(d, r.1) && r.1.prepared == d.prepared && CursorsFrame(d, r.1, crsr)
    ensures r.0 == NoError || r.0 == SqlError
    ensures d.connected ==> |r.1.log| > |d.log| && r.1.log[|d.log|] == ExecParams(query, ps)
    ensures crsr.None? && r.0 == SqlError ==> r.1.ambient == None
    ensures crsr.Some? && !Trapped(d, env, query) ==> r.1.ambient == d.ambient
    // a success that was not intercepted keeps the reply with its row count, not yet positioned
    ensures r.0 == NoError && !Trapped(d, env, query) ==>
              var res := Call(d, srv, ExecParams(query, ps)).0;
              Stored(d, r.1, crsr, ResultSetData(res, -1, NumRows(res)))
  {
    var d0 := if crsr.None? then d.(ambient := None) else d;
    ExecAndClassify(d0, srv, env, crsr, query, ExecParams(query, ps), true)
  }

  /** `exec_params`. */
  function ExecParamsQuery(d: Driver, srv: Server, env: Env, query: string, types: seq<CobolVarType>,
                           values: seq<string>, lengths: seq<nat>, binary: seq<bool>): (r: Step)
    requires d.opts.Some?
    requires MarshalReady(types, values, lengths, binary, env.dbNull)
    ensures r.out != Raised ==> r.d.cursors == d.cursors && r.d.prepared == d.prepared && ExecFrame(d, r.d)
  {
    PgsqlExecParams(d, srv, env, None, query, types, values, lengths, binary)
  }

  /** `_pgsql_exec` judged by the reply to its statement: unless a COMMIT or
      ROLLBACK was intercepted, it succeeds exactly when the driver accepts the
      reply, and the reply then sits on the cursor or in the ambient slot. */
  lemma ExecVerdict(d: Driver, srv: Server, env: Env, crsr: Option<CursorRef>, query: string, r: (DbErr, Driver))
    requires d.opts.Some? && ValidCursor(d, crsr)
    requires r == PgsqlExec(d, srv, env, crsr, query)
    ensures var res := Call(d, srv, ExecParams(query, [])).0;
            !(Trapped(d, env, query) && ResultStatus(res) == PGRES_COMMAND_OK) ==>
              && (r.0 == NoError <==> Accepted(env, query, res))
              && (r.0 == NoError ==> Placed(r.1, crsr, ResultSetData(res, -1, 0)))
  {
    var d0 := if crsr.None? then d.(ambient := None) else d;
    ExecOutcome(d0, srv, env, crsr, query, ExecParams(query, []), false, r);
    assert Call(d0, srv, ExecParams(query, [])).0 == Call(d, srv, ExecParams(query, [])).0;
  }

  /** `_pgsql_exec_params` judged the same way once its parameters are bound:
      success exactly when the reply is accepted, an SQL error otherwise, and
      a success keeps the reply with the row count it reports. */
  lemma ExecParamsVerdict(d: Driver, srv: Server, env: Env, crsr: Option<CursorRef>, query: string,
                          types: seq<CobolVarType>, values: seq<string>, lengths: seq<nat>, binary: seq<bool>, r: Step)
    requires d.opts.Some? && ValidCursor(d, crsr)
    requires MarshalReady(types, values, lengths, binary, env.dbNull)
    requires r == PgsqlExecParams(d, srv, env, crsr, query, types, values, lengths, binary)
    ensures CountsAgree(types, values, binary) && |lengths| >= |values| ==>
              var m := Marshal(types, values, lengths, binary, env.dbNull);
              && m.Bound?
              && var res := Call(d, srv, ExecParams(query, m.params)).0;
                 !(Trapped(d, env, query) && ResultStatus(res) == PGRES_COMMAND_OK) ==>
                   && (r.out == Returned(NoError) <==> Accepted(env, query, res))
                   && (r.out != Returned(NoError) ==> r.out == Returned(SqlError))
                   && (r.out == Returned(NoError) ==> Placed(r.d, crsr, ResultSetData(res, -1, NumRows(res))))
  {
    match Marshal(types, values, lengths, binary, env.dbNull)
    case CountMismatch =>
    case LengthOutOfRange =>
    case Bound(ps) =>
      var d0 := if crsr.None? then d.(ambient := None) else d;
      ExecOutcome(d0, srv, env, crsr, query, ExecParams(query, ps), true, ExecBound(d, srv, env, crsr, query, ps));
      assert Call(d0, srv, ExecParams(query, ps)).0 == Call(d, srv, ExecParams(query, ps)).0;
  }

  // ---------------------------------------------------------------------------
  // Prepared statements
  // ---------------------------------------------------------------------------

  /** The text sent to the server for preparation. */
  function PreparedSql(o: ConnOptions, query: string): string {
    if o.fixupParameters then Fixup.FixupParameters(query) else query
  }

  /** `prepare`: names are lower-cased; an existing name fails without a native
      call; a successful preparation registers the name with no result yet. */
  function Prepare(d: Driver, srv: Server, env: Env, name: string, query: string): (r: (DbErr, Driver))
    requires env.toLower(name) !in d.prepared ==> d.opts.Some?
    ensures env.toLower(name) in d.prepared ==> r == (PrepareFailed, d)
    ensures r.0 == NoError || r.0 == PrepareFailed
    ensures r.1.ambient == d.ambient && r.1.cursors == d.cursors && ExecFrame(d, r.1)
    ensures env.toLower(name) !in d.prepared ==>
              var call := NativeCall.Prepare(env.toLower(name), PreparedSql(d.opts.value, query));
              && (d.connected ==> r.1.log == d.log + [call])
              && (r.0 == NoError <==> ResultStatus(Call(d, srv, call).0) == PGRES_COMMAND_OK)
              // either way the error record is that of the reply
              && var res := Call(d, srv, call).0;
                 r.1.err == ErrorRecord(Raw(ResultStatus(res)), ErrorMessage(res), SqlState(res))
    ensures r.0 == NoError ==> r.1.prepared == d.prepared[env.toLower(name) := None]
    ensures r.0 == PrepareFailed ==> r.1.prepared == d.prepared
  {
    var n := env.toLower(name);
    if n in d.prepared then (PrepareFailed, d)
    else
      var (res, d1) := Call(d, srv, NativeCall.Prepare(n, PreparedSql(d.opts.value, query)));
      var d2 := RecordResult(d1, res);
      if ResultStatus(res) != PGRES_COMMAND_OK then (PrepareFailed, d2)
      else (NoError, d2.(prepared := d2.prepared[n := None]))
  }

  /** `PQexecPrepared` takes no parameter types: the server uses those given at
      preparation, which is what an OID of 0 means. */
  function Untyped(ps: seq<BoundParam>): (r: seq<BoundParam>)
    ensures |r| == |ps| && forall i :: 0 <= i < |ps| ==> r[i] == ps[i].(oid := 0)
  {
    seq(|ps|, i requires 0 <= i < |ps| => ps[i].(oid := 0))
  }

  /** `exec_prepared`: an unknown name is an SQL error with nothing changed; a
      success replaces that name's result. No autocommit emulation and no row
      check happen here. */
  function ExecPrepared(d: Driver, srv: Server, env: Env, name: string, types: seq<CobolVarType>,
                        values: seq<string>, lengths: seq<nat>, binary: seq<bool>): (r: Step)
    requires env.toLower(name) in d.prepared ==> MarshalReady(types, values, lengths, binary, env.dbNull)
    ensures env.toLower(name) !in d.prepared ==> r == Step(Returned(SqlError), d)
    ensures r.out in {Returned(NoError), Returned(SqlError), Returned(InternalErr), Raised}
    ensures r.out == Raised <==>
              env.toLower(name) in d.prepared && CountsAgree(types, values, binary) && |lengths| < |values|
    ensures env.toLower(name) in d.prepared && !CountsAgree(types, values, binary) ==>
              r == Step(Returned(InternalErr), d.(err := d.err.(rc := Engine(InternalErr), message := MISMATCH_MESSAGE)))
    ensures r.d.ambient == d.ambient && r.d.cursors == d.cursors && ExecFrame(d, r.d)
    ensures r.d.prepared.Keys == d.prepared.Keys
    ensures forall k :: k in d.prepared && k != env.toLower(name) ==> r.d.prepared[k] == d.prepared[k]
    ensures r.out == Returned(NoError) ==>
              var m := Marshal(types, values, lengths, binary, env.dbNull);
              && m.Bound?
              && var call := NativeCall.ExecPrepared(env.toLower(name), Untyped(m.params));
                 var res := Call(d, srv, call).0;
                 && ResultStatus(res) in {PGRES_COMMAND_OK, PGRES_TUPLES_OK}
                 && r.d.prepared[env.toLower(name)] == Some(NewResultSetData(res))
    ensures r.out == Returned(SqlError) && env.toLower(name) in d.prepared ==>
              var m := Marshal(types, values, lengths, binary, env.dbNull);
              && m.Bound?
              && var res := Call(d, srv, NativeCall.ExecPrepared(env.toLower(name), Untyped(m.params))).0;
                 && ResultStatus(res) !in {PGRES_COMMAND_OK, PGRES_TUPLES_OK}
                 && r.d.prepared == d.prepared
                 && r.d.err == ErrorRecord(Raw(-(10000 + ResultStatus(res))), ErrorMessage(res), SqlState(res))
    // a known name with bound parameters succeeds exactly when the reply is
    // COMMAND_OK or TUPLES_OK, and is an SQL error otherwise
    ensures env.toLower(name) in d.prepared && CountsAgree(types, values, binary) && |lengths| >= |values| ==>
              var m := Marshal(types, values, lengths, binary, env.dbNull);
              && m.Bound?
              && var res := Call(d, srv, NativeCall.ExecPrepared(env.toLower(name), Untyped(m.params))).0;
                 && (r.out == Returned(NoError) <==> ResultStatus(res) in {PGRES_COMMAND_OK, PGRES_TUPLES_OK})
                 && (r.out != Returned(NoError) ==> r.out == Returned(SqlError))
                 // the call is the only one made, and a success leaves the reply's
                 // status, message and SQLSTATE in the error record
                 && (d.connected ==> r.d.log == d.log + [NativeCall.ExecPrepared(env.toLower(name), Untyped(m.params))])
                 && (!d.connected ==> r.d.log == d.log)
                 && (r.out == Returned(NoError) ==>
                       r.d.err == ErrorRecord(Raw(ResultStatus(res)), ErrorMessage(res), SqlState(res)))
  {
    var n := env.toLower(name);
    if n !in d.prepared then Step(Returned(SqlError), d)
    else
      match Marshal(types, values, lengths, binary, env.dbNull)
      case CountMismatch =>
        Step(Returned(InternalErr), d.(err := d.err.(rc := Engine(InternalErr), message := MISMATCH_MESSAGE)))
      case LengthOutOfRange => Step(Raised, d)
      case Bound(ps) =>
        var (res, d1) := Call(d, srv, NativeCall.ExecPrepared(n, Untyped(ps)));
        var d2 := RecordResult(d1, res);
        var status := ResultStatus(res);
        if status == PGRES_COMMAND_OK || status == PGRES_TUPLES_OK then
          Step(Returned(NoError), d2.(prepared := d2.prepared[n := Some(NewResultSetData(res))]))
        else
          Step(Returned(SqlError), SetRc(d2, Raw(-(10000 + status))))
  }
}

=== FILE: fixup.dfy ===
/** The placeholder rewriter the driver applies to statement text before
    preparing it when the connection asks for parameter fixup: every `?` or `:`
    outside quotes becomes `$1`, `$2`, ... and the alphanumeric name after such a
    placeholder is dropped.

    `FixupParameters` follows the driver's character loop; `Reference` is an
    independent, position-wise description of its output, and the two are
    proved equal. */
module Fixup {
  import opened Basics

  predicate IsMarker(c: char) {
    c == '?' || c == ':'
  }

  // ---------------------------------------------------------------------------
  // The rewriting loop
  // ---------------------------------------------------------------------------

  /** The loop's variables: the next placeholder number and the three flags. */
  datatype Scan = Scan(n: nat, inSingle: bool, inDouble: bool, inParamId: bool)

  const Start := Scan(1, false, false, false)

  /** One iteration of the loop: the new variables and the text appended. A quote
      toggles its own flag even inside the other kind of quote. */
  function Step(st: Scan, c: char): (Scan, string) {
    if st.inParamId && IsAlnum(c) then (st, "")
    else
      var st := st.(inParamId := false);
      if c == '"' then (st.(inDouble := !st.inDouble), [c])
      else if c == '\'' then (st.(inSingle := !st.inSingle), [c])
      else if IsMarker(c) && !st.inSingle && !st.inDouble then
        (st.(n := st.n + 1, inParamId := true), "$" + NatToDecimal(st.n))
      else (st, [c])
  }

  /** The loop run over the rest of the input, from the given variables. */
  function Run(s: string, st: Scan): string
    decreases |s|
  {
    if s == [] then ""
    else
      var (st', out) := Step(st, s[0]);
      out + Run(s[1..], st')
  }

  // ---------------------------------------------------------------------------
  // A position-wise description of the output
  // ---------------------------------------------------------------------------

  /** How many characters equal to `q` occur before position `i`. */
  function CountBefore(s: string, i: nat, q: char): nat
    requires i <= |s|
  {
    if i == 0 then 0 else CountBefore(s, i - 1, q) + (if s[i - 1] == q then 1 else 0)
  }

  /** Position `i` holds a marker and an even number of each kind of quote precedes it. */
  predicate IsPlaceholderAt(s: string, i: nat)
    requires i < |s|
  {
    IsMarker(s[i]) && CountBefore(s, i, '\'') % 2 == 0 && CountBefore(s, i, '"') % 2 == 0
  }

  /** The number of placeholders strictly before position `i`. */
  function PlaceholdersBefore(s: string, i: nat): nat
    requires i <= |s|
  {
    if i == 0 then 0 else PlaceholdersBefore(s, i - 1) + (if IsPlaceholderAt(s, i - 1) then 1 else 0)
  }

  /** The character before position `i` is a placeholder or belongs to the
      alphanumeric run that directly follows one. */
  predicate AfterPlaceholder(s: string, i: nat)
    requires i <= |s|
  {
    i > 0 && (IsPlaceholderAt(s, i - 1) || (IsAlnum(s[i - 1]) && AfterPlaceholder(s, i - 1)))
  }

  /** Position `i` belongs to a placeholder's name and is dropped. */
  predicate Dropped(s: string, i: nat)
    requires i < |s|
  {
    IsAlnum(s[i]) && AfterPlaceholder(s, i)
  }

  /** What position `i` of the input contributes to the output. */
  function Piece(s: string, i: nat): string
    requires i < |s|
  {
    if Dropped(s, i) then ""
    else if IsPlaceholderAt(s, i) then "$" + NatToDecimal(PlaceholdersBefore(s, i) + 1)
    else [s[i]]
  }

  /** The pieces of positions `i`, `i + 1`, ... concatenated. */
  function Pieces(s: string, i: nat): string
    requires i <= |s|
    decreases |s| - i
  {
    if i == |s| then "" else Piece(s, i) + Pieces(s, i + 1)
  }

  function Reference(s: string): string {
    Pieces(s, 0)
  }

  /** The loop's variables when it reaches position `i`. */
  function ScanAt(s: string, i: nat): Scan
    requires i <= |s|
  {
    Scan(PlaceholdersBefore(s, i) + 1,
         CountBefore(s, i, '\'') % 2 == 1,
         CountBefore(s, i, '"') % 2 == 1,
         AfterPlaceholder(s, i))
  }

  /** The loop variables after one step are those of the next position, and the
      step appends exactly that position's piece. */
  lemma StepMatchesPiece(s: string, i: nat)
    requires i < |s|
    ensures Step(ScanAt(s, i), s[i]) == (ScanAt(s, i + 1), Piece(s, i))
  {
  }

  lemma {:induction false} RunMatchesPieces(s: string, i: nat)
    requires i <= |s|
    ensures Run(s[i..], ScanAt(s, i)) == Pieces(s, i)
    decreases |s| - i
  {
    if i < |s| {
      StepMatchesPiece(s, i);
      assert s[i..][1..] == s[i + 1..];
      RunMatchesPieces(s, i + 1);
    }
  }

  /** The rewrite of the driver's parameter fixup. */
  function FixupParameters(sql: string): (r: string)
    ensures r == Reference(sql)
  {
    RunMatchesPieces(sql, 0);
    assert sql[0..] == sql;
    Run(sql, Start)
  }

  // ---------------------------------------------------------------------------
  // Properties
  // ---------------------------------------------------------------------------

  lemma {:induction false} NoMarkerNoPlaceholder(s: string, i: nat)
    requires i <= |s|
    requires forall k :: 0 <= k < |s| ==> !IsMarker(s[k])
    ensures !AfterPlaceholder(s, i)
    ensures PlaceholdersBefore(s, i) == 0
  {
    if i > 0 {
      NoMarkerNoPlaceholder(s, i - 1);
    }
  }

  lemma {:induction false} PiecesWithoutMarkers(s: string, i: nat)
    requires i <= |s|
    requires forall k :: 0 <= k < |s| ==> !IsMarker(s[k])
    ensures Pieces(s, i) == s[i..]
    decreases |s| - i
  {
    if i < |s| {
      NoMarkerNoPlaceholder(s, i);
      PiecesWithoutMarkers(s, i + 1);
      assert s[i..] == [s[i]] + s[i + 1..];
    }
  }

  /** Text without `?` and `:` passes through unchanged. */
  lemma FixupWithoutMarkersIsIdentity(sql: string)
    requires forall k :: 0 <= k < |sql| ==> !IsMarker(sql[k])
    ensures FixupParameters(sql) == sql
  {
    PiecesWithoutMarkers(sql, 0);
  }

  /** Every character that is not a marker and not part of a placeholder name is
      copied; a marker outside quotes becomes `$k` where k counts the
      placeholders up to and including it. */
  lemma PieceCases(s: string, i: nat)
    requires i < |s|
    ensures !IsMarker(s[i]) && !Dropped(s, i) ==> Piece(s, i) == [s[i]]
    ensures IsMarker(s[i]) && !IsPlaceholderAt(s, i) ==> Piece(s, i) == [s[i]]
    ensures IsPlaceholderAt(s, i) ==>
              Piece(s, i) == "$" + NatToDecimal(PlaceholdersBefore(s, i + 1))
    ensures Dropped(s, i) ==> Piece(s, i) == "" && !IsMarker(s[i]) && s[i] != '\'' && s[i] != '"'
  {
  }

  /** Placeholders are numbered consecutively from 1: the loop's counter after
      the whole input is one more than the number of placeholders. */
  lemma {:induction false} CounterCountsPlaceholders(s: string, st: Scan, i: nat)
    requires i <= |s| && st == ScanAt(s, i)
    ensures st.n == PlaceholdersBefore(s, i) + 1
    ensures i < |s| && IsPlaceholderAt(s, i) ==> Step(st, s[i]).0.n == st.n + 1
    ensures i < |s| && !IsPlaceholderAt(s, i) ==> Step(st, s[i]).0.n == st.n
  {
    if i < |s| {
      StepMatchesPiece(s, i);
    }
  }

  /** A `?` between a pair of double quotes that enclose one single quote is
      not replaced: the single quote toggles its flag inside the double-quoted
      text, so the marker looks quoted. */
  lemma QuoteInsideOtherQuoteToggles()
    ensures FixupParameters("\"'\"?") == "\"'\"?"
  {
    var s := "\"'\"?";
    assert CountBefore(s, 3, '\'') == 1;
    assert !IsPlaceholderAt(s, 3);
    assert Pieces(s, 4) == "";
    assert Pieces(s, 0) == s;
  }

  /** A named host variable and a positional marker become `$1` and `$2`; the
      name `v` after the colon is dropped. */
  lemma NamedAndPositionalMarkers()
    ensures FixupParameters(":v?") == "$1$2"
  {
    var s1 := Scan(1, false, false, false);
    var s2n := Scan(2, false, false, true);
    assert NatToDecimal(1) == "1" && NatToDecimal(2) == "2";
    assert "$" + "1" == "$1" && "$" + "2" == "$2";
    assert Step(s2n, '?') == (Scan(3, false, false, true), "$2");
    assert Run("?", s2n) == "$2" by { assert "?"[1..] == ""; }
    assert Run("v?", s2n) == "$2" by { assert "v?"[1..] == "?"; }
    assert Step(s1, ':') == (s2n, "$1");
    assert Run(":v?", s1) == "$1$2" by { assert ":v?"[1..] == "v?"; }
  }
}

=== FILE: hostref.dfy ===
/** Decoding of a cursor's query text from the COBOL host variable it was
    declared with: a NUL-terminated literal, fixed-length text that is trimmed,
    or variable-length text behind a length prefix whose stored value is read
    but not used. Host memory is modelled as the characters readable from the
    variable's address; `None` is a null address. */
module HostRef {
  import opened Basics

  /** Size of the length prefix in front of a variable-length host variable. */
  const VARLEN_LENGTH_SZ: nat := 2

  /** The characters before the first NUL, as a C string constructor reads them. */
  function UpToNul(data: string): (r: string)
    requires '\0' in data
    ensures '\0' !in r
    ensures |r| < |data| && data[..|r|] == r && data[|r|] == '\0'
  {
    if data[0] == '\0' then "" else [data[0]] + UpToNul(data[1..])
  }

  /** What the decoder reads lies inside the memory given: a NUL for a literal,
      `l` characters for fixed-length text, the prefix and `-l - VARLEN_LENGTH_SZ`
      characters after it for variable-length text (whose declared size must
      cover the prefix). */
  predicate Readable(data: Option<string>, l: int) {
    data.Some? ==>
      if l == 0 then '\0' in data.value
      else if l > 0 then l <= |data.value|
      else VARLEN_LENGTH_SZ <= -l <= |data.value|
  }

  /** The query text held by a host variable of length `l` at `data`. */
  function TrimmedHostRefOrLiteral(env: Env, data: Option<string>, l: int): (r: string)
    requires Readable(data, l)
    ensures data.None? ==> r == ""
    ensures data.Some? && l == 0 ==> '\0' !in r && StartsWith(data.value, r + "\0")
    ensures data.Some? && l > 0 ==> r == env.trimCopy(data.value[..l])
    ensures data.Some? && l < 0 ==> r == env.trimCopy(data.value[VARLEN_LENGTH_SZ .. -l])
  {
    match data
    case None => ""
    case Some(d) =>
      if l == 0 then
        var r := UpToNul(d);
        assert (r + "\0") == d[..|r| + 1];
        r
      else if l > 0 then env.trimCopy(d[..l])
      else
        // the driver reads the length stored in the prefix but does not use it
        env.trimCopy(d[VARLEN_LENGTH_SZ .. -l])
  }

  /** For variable-length text only the characters after the prefix and within
      the declared size matter: the stored length and whatever follows the
      declared size never change the decoded text. */
  lemma VarlenPrefixIgnored(env: Env, d1: string, d2: string, l: int)
    requires l < 0 && Readable(Some(d1), l) && Readable(Some(d2), l)
    requires d1[VARLEN_LENGTH_SZ .. -l] == d2[VARLEN_LENGTH_SZ .. -l]
    ensures TrimmedHostRefOrLiteral(env, Some(d1), l) == TrimmedHostRefOrLiteral(env, Some(d2), l)
  {
  }

  lemma {:induction false} UpToNulOfTerminated(lit: string, rest: string)
    requires '\0' !in lit
    ensures UpToNul(lit + "\0" + rest) == lit
    decreases |lit|
  {
    var d := lit + "\0" + rest;
    if lit != "" {
      assert d[0] == lit[0];
      assert d[1..] == lit[1..] + "\0" + rest;
      UpToNulOfTerminated(lit[1..], rest);
      assert lit == [lit[0]] + lit[1..];
    }
  }

  /** A literal ends at its first NUL: appending anything after the terminator
      leaves the decoded text alone. */
  lemma LiteralStopsAtNul(env: Env, lit: string, rest: string)
    requires '\0' !in lit
    ensures TrimmedHostRefOrLiteral(env, Some(lit + "\0" + rest), 0) == lit
  {
    UpToNulOfTerminated(lit, rest);
    assert (lit + "\0" + rest)[|lit|] == '\0';
  }
}

=== FILE: join.dfy ===
/** `vector_join`: strings concatenated with a separator between
    neighbours, and splitting as its inverse. */
module Join {

  /** The joined string: elements in order, one separator between each pair of
      neighbours and none at the ends. */
  function Joined(v: seq<string>, sep: char): string
    decreases |v|
  {
    if |v| == 0 then ""
    else if |v| == 1 then v[0]
    else v[0] + [sep] + Joined(v[1..], sep)
  }

  /** Appending an element to a non-empty vector appends a separator and it. */
  lemma {:induction false} JoinedSnoc(v: seq<string>, x: string, sep: char)
    requires |v| > 0
    ensures Joined(v + [x], sep) == Joined(v, sep) + [sep] + x
    decreases |v|
  {
    if |v| == 1 {
      assert (v + [x])[1..] == [x];
    } else {
      assert (v + [x])[1..] == v[1..] + [x];
      JoinedSnoc(v[1..], x, sep);
    }
  }

  /** The driver's loop: each element is appended, followed by the separator
      unless it is the last one. */
  method VectorJoin(v: seq<string>, sep: char) returns (s: string)
    ensures s == Joined(v, sep)
  {
    s := "";
    var i := 0;
    while i < |v|
      invariant 0 <= i <= |v|
      invariant s == Joined(v[..i], sep) + (if 0 < i < |v| then [sep] else "")
    {
      if i > 0 {
        JoinedSnoc(v[..i], v[i], sep);
      }
      assert v[..i + 1] == v[..i] + [v[i]];
      s := s + v[i];
      if i != |v| - 1 {
        s := s + [sep];
      }
      i := i + 1;
    }
    assert v[..i] == v;
  }

  /** The position of the first `c` in `s`. */
  function IndexOf(s: string, c: char): (i: nat)
    requires c in s
    ensures i < |s| && s[i] == c && c !in s[..i]
  {
    if s[0] == c then 0 else 1 + IndexOf(s[1..], c)
  }

  /** `s` cut at every occurrence of `sep`. */
  function Split(s: string, sep: char): (parts: seq<string>)
    ensures |parts| >= 1
    decreases |s|
  {
    if sep !in s then [s]
    else
      var i := IndexOf(s, sep);
      [s[..i]] + Split(s[i + 1..], sep)
  }

  /** Splitting a string that starts with a separator-free piece and a
      separator yields that piece first. */
  lemma SplitAfterPiece(a: string, t: string, sep: char)
    requires sep !in a
    ensures Split(a + [sep] + t, sep) == [a] + Split(t, sep)
  {
    var s := a + [sep] + t;
    assert s[|a|] == sep;
    var i := IndexOf(s, sep);
    assert s[..|a|] == a;
    assert s[..i] == a;
    assert s[i + 1..] == t;
  }

  /** Joining is undone by splitting, provided no element contains the
      separator: the vector comes back exactly. The empty vector is the one
      exception, since it joins to the same string as [""]. */
  lemma {:induction false} SplitJoined(v: seq<string>, sep: char)
    requires |v| >= 1
    requires forall i :: 0 <= i < |v| ==> sep !in v[i]
    ensures Split(Joined(v, sep), sep) == v
    decreases |v|
  {
    if |v| > 1 {
      SplitAfterPiece(v[0], Joined(v[1..], sep), sep);
      SplitJoined(v[1..], sep);
    }
  }

  /** The joined length: the elements' lengths plus one per separator. */
  function TotalLength(v: seq<string>): nat {
    if |v| == 0 then 0 else |v[0]| + TotalLength(v[1..])
  }

  lemma {:induction false} JoinedLength(v: seq<string>, sep: char)
    requires |v| >= 1
    ensures |Joined(v, sep)| == TotalLength(v) + |v| - 1
    decreases |v|
  {
    if |v| > 1 {
      JoinedLength(v[1..], sep);
    }
  }
}

=== FILE: libpq.dfy ===
/** The PostgreSQL client library as the driver sees it. Results are plain
    values; the server is an oracle that answers each native call given the
    calls made before it, so any server behaviour, stateful or not, is a
    possible oracle. A null `PGresult*` is `None`. */
module Libpq {
  import opened Basics

  // libpq's ExecStatusType
  const PGRES_COMMAND_OK := 1
  const PGRES_TUPLES_OK := 2
  const PGRES_FATAL_ERROR := 7

  // libpq's ConnStatusType
  const CONNECTION_OK := 0

  // Type OIDs the driver uses
  const OID_BYTEA := 17
  const OID_NUMERIC := 1700
  const OID_VARCHAR := 1043

  /** One field of a result row. */
  datatype Cell = SqlNull | Text(text: string)

  /** A result: its status, the row count `PQcmdTuples` reports (already
      converted by atoi, so 0 where libpq reports no count), the type OID of
      each column, the rows, the error message and the SQLSTATE field if any. */
  datatype PgResult = PgResult(
    status: int,
    cmdTuples: nat,
    columnTypes: seq<int>,
    rows: seq<seq<Cell>>,
    errorMessage: string,
    sqlState: Option<string>)

  /** One parameter as handed to libpq: value (None for NULL), length, type OID
      and format (0 text, 1 binary). */
  datatype BoundParam = BoundParam(value: Option<string>, length: int, oid: int, format: int)

  /** The calls the driver makes into libpq that reach the server. For `Connect`
      the reply's status is the new connection's `PQstatus` and its message the
      connection's error message (a `None` reply is a null connection); for
      `SetClientEncoding` the reply's status is the function's return value. */
  datatype NativeCall =
    | Connect(connParams: map<string, string>)
    | SetClientEncoding(encoding: string)
    | Exec(query: string)
    | ExecParams(query: string, params: seq<BoundParam>)
    | Prepare(name: string, sql: string)
    | ExecPrepared(name: string, params: seq<BoundParam>)

  /** The server and libpq's own foreign helpers. */
  datatype Server = Server(
    respond: (seq<NativeCall>, NativeCall) -> Option<PgResult>,
    unescapeBytea: string -> Option<string>)

  /** PQresultStatus: a null result reads as a fatal error. */
  function ResultStatus(r: Option<PgResult>): int {
    match r
    case None => PGRES_FATAL_ERROR
    case Some(res) => res.status
  }

  /** PQresultErrorMessage: empty for a null result. */
  function ErrorMessage(r: Option<PgResult>): string {
    match r
    case None => ""
    case Some(res) => res.errorMessage
  }

  /** The driver's SQLSTATE reader: the diagnostic field, or "00000" without one. */
  function SqlState(r: Option<PgResult>): (s: string)
    ensures r.None? ==> s == "00000"
  {
    match r
    case None => "00000"
    case Some(res) => res.sqlState.GetOr("00000")
  }

  /** The driver's row counter: -1 for a null result, otherwise atoi(PQcmdTuples). */
  function NumRows(r: Option<PgResult>): int {
    match r
    case None => -1
    case Some(res) => res.cmdTuples
  }

  /** PQntuples. */
  function NTuples(r: PgResult): nat {
    |r.rows|
  }

  /** PQgetvalue: the field's text ("" for NULL), or a null pointer when the
      result is null or the row or column is out of range. */
  function GetValue(r: Option<PgResult>, row: int, col: int): (v: Option<string>)
    ensures v.Some? ==> r.Some? && 0 <= row < |r.value.rows| && 0 <= col < |r.value.columnTypes|
  {
    match r
    case None => None
    case Some(res) =>
      if 0 <= row < |res.rows| && 0 <= col < |res.columnTypes| && col < |res.rows[row]| then
        match res.rows[row][col]
        case SqlNull => Some("")
        case Text(t) => Some(t)
      else None
  }

  /** PQgetisnull for a field inside the result. */
  predicate GetIsNull(r: PgResult, row: nat, col: nat)
    requires row < |r.rows|
  {
    col < |r.rows[row]| && r.rows[row][col].SqlNull?
  }
}

=== FILE: lifecycle.dfy ===
/** Properties that span several driver operations: the life of a prepared
    statement, and what reads see after an execution. */
module Lifecycle {
  import opened Basics
  import opened Libpq
  import opened Params
  import opened Session
  import opened Execution
  import opened Values

  /** A name can be prepared only once: after a successful preparation a
      second one fails at once, with no native call and nothing changed. */
  lemma PrepareTwice(d: Driver, srv: Server, env: Env, name: string, q1: string, q2: string)
    requires d.opts.Some?
    requires Execution.Prepare(d, srv, env, name, q1).0 == NoError
    ensures var d1 := Execution.Prepare(d, srv, env, name, q1).1;
            Execution.Prepare(d1, srv, env, name, q2) == (PrepareFailed, d1)
  {
  }

  /** A prepared statement that has not been executed has no result to be
      positioned on or read from. */
  lemma PreparedHasNoResultYet(d: Driver, srv: Server, env: Env, name: string, query: string,
                               row: int, col: int, bfrlen: nat)
    requires d.opts.Some? && env.toLower(name) != ""
    requires Execution.Prepare(d, srv, env, name, query).0 == NoError
    ensures var d1 := Execution.Prepare(d, srv, env, name, query).1;
            && !MoveToFirstRecord(d1, env, name).0
            && MoveToFirstRecord(d1, env, name).1.err
                 == ErrorRecord(Engine(MoveToFirstFailed), "Invalid statement reference", "HY000")
            && !GetResultsetValue(d1, srv, env, PreparedStatement(name), row, col, bfrlen).ok
  {
  }

  /** Once executed successfully with rows reported, a prepared statement can
      be positioned, and its fields are read from the result of that
      execution at the requested row. */
  lemma ExecutedPreparedIsReadable(d: Driver, srv: Server, env: Env, name: string,
                                   types: seq<CobolVarType>, values: seq<string>, lengths: seq<nat>,
                                   binary: seq<bool>, row: int, col: int, bfrlen: nat)
    requires env.toLower(name) != ""
    requires env.toLower(name) in d.prepared ==> MarshalReady(types, values, lengths, binary, env.dbNull)
    requires Execution.ExecPrepared(d, srv, env, name, types, values, lengths, binary).out == Returned(NoError)
    ensures var d1 := Execution.ExecPrepared(d, srv, env, name, types, values, lengths, binary).d;
            var m := Marshal(types, values, lengths, binary, env.dbNull);
            var res := Call(d, srv, NativeCall.ExecPrepared(env.toLower(name), Untyped(m.params))).0;
            && m.Bound?
            && (MoveToFirstRecord(d1, env, name).0 <==> NumRows(res) > 0)
            && GetResultsetValue(d1, srv, env, PreparedStatement(name), row, col, bfrlen)
                 == ReadCell(srv, d1.decodeBinary, res, row, col, bfrlen)
  {
  }

  /** After a successful plain execution that was not an intercepted COMMIT
      or ROLLBACK, reads of the current result set see the new result. */
  lemma ExecThenRead(d: Driver, srv: Server, env: Env, query: string, row: int, col: int, bfrlen: nat)
    requires d.opts.Some?
    requires !Trapped(d, env, query)
    requires ExecQuery(d, srv, env, query).0 == NoError
    ensures var d1 := ExecQuery(d, srv, env, query).1;
            var res := Call(d, srv, ExecParams(query, [])).0;
            GetResultsetValue(d1, srv, env, CurrentResultSet, row, col, bfrlen)
              == ReadCell(srv, d.decodeBinary, res, row, col, bfrlen)
  {
    var d0 := d.(ambient := None);
    assert Call(d0, srv, ExecParams(query, [])).0 == Call(d, srv, ExecParams(query, [])).0;
  }
}

=== FILE: params.dfy ===
/** Marshalling of COBOL host-variable parameters into the arrays libpq takes.
    Of a parameter's flag word the driver only ever asks whether the binary bit
    is set, so flags are modelled as that answer. */
module Params {
  import opened Basics
  import opened Libpq

  /** COBOL variable type tags; `OtherType` stands for every tag the driver
      does not name. */
  datatype CobolVarType =
    | UnsignedNumber | SignedNumberTc | SignedNumberTs | SignedNumberLc | SignedNumberLs
    | UnsignedNumberPd | SignedNumberPd | UnsignedBinary | SignedBinary
    | Alphanumeric | Japanese
    | OtherType(tag: int)

  predicate IsNumericType(t: CobolVarType) {
    t in {UnsignedNumber, SignedNumberTc, SignedNumberTs, SignedNumberLc, SignedNumberLs,
          UnsignedNumberPd, SignedNumberPd, UnsignedBinary, SignedBinary}
  }

  predicate IsTextType(t: CobolVarType) {
    t == Alphanumeric || t == Japanese
  }

  /** The PostgreSQL type OID a parameter is sent with: each OID identifies its
      class of COBOL types, and bytea is chosen exactly for binary text. */
  function PgType(t: CobolVarType, binary: bool): (oid: int)
    ensures oid == OID_NUMERIC <==> IsNumericType(t)
    ensures oid == OID_BYTEA <==> IsTextType(t) && binary
    ensures oid == OID_VARCHAR <==> IsTextType(t) && !binary
    ensures oid == 0 <==> !IsNumericType(t) && !IsTextType(t)
  {
    match t
    case UnsignedNumber | SignedNumberTc | SignedNumberTs | SignedNumberLc | SignedNumberLs
       | UnsignedNumberPd | SignedNumberPd | UnsignedBinary | SignedBinary => OID_NUMERIC
    case Alphanumeric | Japanese => if binary then OID_BYTEA else OID_VARCHAR
    case OtherType(_) => 0
  }

  /** Transmission format: binary exactly when the binary flag is set. */
  function Format(binary: bool): (f: int)
    ensures f == 1 <==> binary
    ensures f == 0 <==> !binary
  {
    if binary then 1 else 0
  }

  /** Non-NULL lengths stay inside their value buffers (the driver copies that
      many bytes out of them). */
  predicate ValuesCover(values: seq<string>, lengths: seq<nat>, dbNull: nat) {
    forall i :: 0 <= i < |values| && i < |lengths| && lengths[i] != dbNull ==> lengths[i] <= |values[i]|
  }

  /** The types, values and flags vectors have one entry per parameter. */
  predicate CountsAgree(types: seq<CobolVarType>, values: seq<string>, binary: seq<bool>) {
    |types| == |values| && |types| == |binary|
  }

  /** What marshalling needs: once the count check has passed, the values are
      read, so their lengths must fit. */
  predicate MarshalReady(types: seq<CobolVarType>, values: seq<string>, lengths: seq<nat>, binary: seq<bool>,
                         dbNull: nat) {
    CountsAgree(types, values, binary) ==> ValuesCover(values, lengths, dbNull)
  }

  /** The outcome of marshalling: a count mismatch between types, values and
      flags; the lengths vector too short, so that `at` throws; or the bound array. */
  datatype Marshalled =
    | CountMismatch
    | LengthOutOfRange
    | Bound(params: seq<BoundParam>)

  /** The parameter at position `i`. */
  function BindOne(t: CobolVarType, value: string, length: nat, binary: bool, dbNull: nat): BoundParam
    requires length != dbNull ==> length <= |value|
  {
    if length != dbNull then BoundParam(Some(value[..length]), length, PgType(t, binary), Format(binary))
    else BoundParam(None, 0, PgType(t, binary), Format(binary))
  }

  /** The parameters at positions `i` and after, in order. */
  function BindFrom(types: seq<CobolVarType>, values: seq<string>, lengths: seq<nat>, binary: seq<bool>,
                    dbNull: nat, i: nat): (ps: seq<BoundParam>)
    requires |types| == |values| == |binary| <= |lengths| && i <= |values|
    requires ValuesCover(values, lengths, dbNull)
    ensures |ps| == |values| - i
    ensures forall k :: 0 <= k < |ps| ==> (ps[k].value.None? <==> lengths[i + k] == dbNull)
    ensures forall k :: 0 <= k < |ps| && lengths[i + k] != dbNull ==>
              ps[k].value == Some(values[i + k][..lengths[i + k]]) && ps[k].length == lengths[i + k]
    ensures forall k :: 0 <= k < |ps| && lengths[i + k] == dbNull ==> ps[k].length == 0
    ensures forall k :: 0 <= k < |ps| ==>
              ps[k].oid == PgType(types[i + k], binary[i + k]) && ps[k].format == Format(binary[i + k])
    decreases |values| - i
  {
    if i == |values| then []
    else [BindOne(types[i], values[i], lengths[i], binary[i], dbNull)]
         + BindFrom(types, values, lengths, binary, dbNull, i + 1)
  }

  /** The driver's marshalling loop, with its count check in front. Only the
      types, values and flags vectors are compared; the lengths vector is read
      with bounds checking and throws when it is shorter. */
  function Marshal(types: seq<CobolVarType>, values: seq<string>, lengths: seq<nat>, binary: seq<bool>,
                   dbNull: nat): (m: Marshalled)
    requires MarshalReady(types, values, lengths, binary, dbNull)
    ensures m.CountMismatch? <==> !CountsAgree(types, values, binary)
    ensures m.LengthOutOfRange? <==> |types| == |values| == |binary| && |lengths| < |values|
    ensures m.Bound? ==> |m.params| == |values|
    ensures m.Bound? ==> forall i :: 0 <= i < |values| ==>
              && (m.params[i].value.None? <==> lengths[i] == dbNull)
              && (lengths[i] == dbNull ==> m.params[i].length == 0)
              && (lengths[i] != dbNull ==>
                    m.params[i].value == Some(values[i][..lengths[i]]) && m.params[i].length == lengths[i])
              && m.params[i].oid == PgType(types[i], binary[i])
              && (m.params[i].format == 1 <==> binary[i])
  {
    if |types| != |values| || |types| != |binary| then CountMismatch
    else if |lengths| < |values| then LengthOutOfRange
    else Bound(BindFrom(types, values, lengths, binary, dbNull, 0))
  }
}

=== FILE: session.dfy ===
/** The PostgreSQL driver's session state: the ambient result slot, the
    prepared-statement and declared-cursor tables, the error record and the
    behaviour flags, together with the cursor objects the caller shares with
    the driver and the log of native calls made so far. */
module Session {
  import opened Basics
  import opened Libpq
  import opened Params

  /** The engine's own result codes. */
  datatype DbErr =
    | NoError | ConnectionFailed | ConnResetFailed | PrepareFailed | SqlError | InternalErr
    | NoData | TooMuchData | OpenCursorFailed | CloseCursorFailed | DeclareCursorFailed
    | FetchRowFailed | MoveToFirstFailed

  /** What `last_rc` holds: a raw number (a libpq status, a normalised SQL
      error code, 100 for "no rows touched", ...) or one of the engine's codes. */
  datatype LastRc = Raw(n: int) | Engine(e: DbErr)

  /** `last_rc`, `last_error` and `last_state`. */
  datatype ErrorRecord = ErrorRecord(rc: LastRc, message: string, state: string)

  /** A result handle plus the engine's row position and cached row count. */
  datatype ResultSetData = ResultSetData(resultset: Option<PgResult>, currentRowIndex: int, numRows: int)

  /** A newly created result record: not yet positioned on a row, no count. */
  function NewResultSetData(r: Option<PgResult>): (rs: ResultSetData)
    ensures rs.resultset == r && rs.currentRowIndex == -1 && rs.numRows == 0
  {
    ResultSetData(r, -1, 0)
  }

  /** A cursor object: its name, literal query or host-variable source (address
      and length), WITH HOLD flag, parameters and the result attached to it. */
  datatype Cursor = Cursor(
    name: string,
    query: string,
    source: Option<string>,
    sourceLen: int,
    withHold: bool,
    paramTypes: seq<CobolVarType>,
    paramValues: seq<string>,
    paramLengths: seq<nat>,
    paramBinary: seq<bool>,
    privateData: Option<ResultSetData>)

  /** Identity of a cursor object shared between the caller and the driver. */
  type CursorRef = nat

  datatype AutoCommitMode = AutoCommitOn | AutoCommitOff

  datatype ConnOptions = ConnOptions(autocommit: AutoCommitMode, clientEncoding: string, fixupParameters: bool)

  const DECODE_BINARY_ON := 1
  const DECODE_BINARY_OFF := 0
  const DECODE_BINARY_DEFAULT := DECODE_BINARY_ON

  datatype Driver = Driver(
    connected: bool,                              // the native connection handle is non-null
    opts: Option<ConnOptions>,                    // options of the last successful connect
    ambient: Option<ResultSetData>,               // result of the last unnamed execution
    err: ErrorRecord,
    declared: map<string, CursorRef>,             // keyed by the cursor's name as given
    prepared: map<string, Option<ResultSetData>>, // keyed by lower-cased name
    decodeBinary: int,
    nativeCursors: bool,
    cursors: map<CursorRef, Cursor>,              // the cursor objects
    log: seq<NativeCall>)                         // native calls made, in order

  /** A driver as constructed, before `init` and `connect`. */
  function NewDriver(): (d: Driver)
    // no connection, options, result, cursor or prepared statement yet, no
    // native call made, binary decoding at its default and native cursors on
    ensures !d.connected && d.opts.None? && d.ambient.None?
    ensures d.err == ErrorRecord(Raw(0), "", "")
    ensures d.declared == map[] && d.prepared == map[] && d.cursors == map[] && d.log == []
    ensures d.decodeBinary == DECODE_BINARY_DEFAULT && d.nativeCursors
  {
    Driver(false, None, None, ErrorRecord(Raw(0), "", ""), map[], map[],
           DECODE_BINARY_DEFAULT, true, map[], [])
  }

  /** A call that reaches the server: it is answered given the calls before it. */
  function Send(d: Driver, srv: Server, call: NativeCall): (r: (Option<PgResult>, Driver))
    ensures r.1 == d.(log := d.log + [call]) && r.0 == srv.respond(d.log, call)
  {
    (srv.respond(d.log, call), d.(log := d.log + [call]))
  }

  /** One native call on the driver's connection: with no connection libpq
      refuses it and returns a null result without contacting the server. */
  function Call(d: Driver, srv: Server, call: NativeCall): (r: (Option<PgResult>, Driver))
    ensures r.1 == d.(log := r.1.log)
    ensures d.connected ==> r.1.log == d.log + [call] && r.0 == srv.respond(d.log, call)
    ensures !d.connected ==> r == (None, d)
  {
    if !d.connected then (None, d) else Send(d, srv, call)
  }

  /** The error record refreshed from a result. */
  function RecordResult(d: Driver, r: Option<PgResult>): Driver {
    d.(err := ErrorRecord(Raw(ResultStatus(r)), ErrorMessage(r), SqlState(r)))
  }

  function SetRc(d: Driver, rc: LastRc): Driver {
    d.(err := d.err.(rc := rc))
  }

  /** The error record set as a whole. */
  function SetError(d: Driver, rc: LastRc, state: string, message: string): Driver {
    d.(err := ErrorRecord(rc, message, state))
  }

  predicate ValidCursor(d: Driver, crsr: Option<CursorRef>) {
    crsr.Some? ==> crsr.value in d.cursors
  }

  /** Attach a result to a cursor object. */
  function SetPrivateData(d: Driver, c: CursorRef, data: Option<ResultSetData>): Driver
    requires c in d.cursors
  {
    d.(cursors := d.cursors[c := d.cursors[c].(privateData := data)])
  }

  /** Cursor objects other than `crsr` are untouched, and `crsr` changes at most
      in its attached result. */
  predicate CursorsFrame(d: Driver, d': Driver, crsr: Option<CursorRef>) {
    && d'.cursors.Keys == d.cursors.Keys
    && (forall c :: c in d.cursors && Some(c) != crsr ==> d'.cursors[c] == d.cursors[c])
    && (crsr.Some? && crsr.value in d.cursors ==>
          d'.cursors[crsr.value] == d.cursors[crsr.value].(privateData := d'.cursors[crsr.value].privateData))
  }

  /** The parts of the state that statement execution never changes. */
  predicate ExecFrame(d: Driver, d': Driver) {
    && d'.connected == d.connected
    && d'.opts == d.opts
    && d'.declared == d.declared
    && d'.decodeBinary == d.decodeBinary
    && d'.nativeCursors == d.nativeCursors
  }
}

=== FILE: values.dfy ===
/** Reading results: a field copied into a caller buffer, positioning on the
    first record, and the row and field counts. */
module Values {
  import opened Basics
  import opened Libpq
  import opened Session
  import opened Cursors

  /** Where a value is read from. A cursor context may carry a null cursor. */
  datatype ResultSetContext =
    | CurrentResultSet
    | PreparedStatement(statementName: string)
    | CursorContext(cursor: Option<CursorRef>)

  /** The effect of `get_resultset_value` on its outputs: the return value, the
      length written back, whether the NULL flag was set, and the bytes
      written into the buffer from its start. */
  datatype ValueRead = ValueRead(ok: bool, valueLen: nat, setsNull: bool, written: string)

  const FAILED := ValueRead(false, 0, false, "")

  /** `n` zero bytes. */
  function Zeros(n: nat): (z: string)
    ensures |z| == n && forall i :: 0 <= i < n ==> z[i] == '\0'
  {
    seq(n, _ => '\0')
  }

  /** The field at (row, col) of `res` copied into a buffer of `bfrlen` bytes. A
      NULL field sets the flag and writes one NUL byte. Text is copied with its
      terminating NUL and refused when longer than the buffer. A bytea column,
      unless binary decoding is off, is unescaped, refused when longer than
      the buffer, and padded with zero bytes to the buffer's end. */
  function ReadCell(srv: Server, decodeBinary: int, res: Option<PgResult>, row: int, col: int, bfrlen: nat): (v: ValueRead)
    ensures !v.ok ==> v == FAILED
    ensures v.setsNull ==> v.ok && v.valueLen == 0 && v.written == "\0"
    ensures v.ok && !v.setsNull ==>
              && v.valueLen <= bfrlen && v.valueLen <= |v.written| <= bfrlen + 1
              && forall i :: v.valueLen <= i < |v.written| ==> v.written[i] == '\0'
    ensures GetValue(res, row, col).None? ==> v == FAILED
    // text is copied whole, followed by its terminating NUL
    ensures v.ok && !v.setsNull && GetValue(res, row, col).Some?
            && (res.value.columnTypes[col] != OID_BYTEA || decodeBinary == 0) ==>
              v.written == GetValue(res, row, col).value + "\0" && |v.written| == v.valueLen + 1
  {
    match GetValue(res, row, col)
    case None => FAILED
    case Some(text) =>
      var r := res.value;
      if text == "" && GetIsNull(r, row, col) then ValueRead(true, 0, true, "\0")
      else if r.columnTypes[col] != OID_BYTEA || decodeBinary == 0 then
        if |text| > bfrlen then FAILED else ValueRead(true, |text|, false, text + "\0")
      else
        match srv.unescapeBytea(text)
        case None => FAILED
        case Some(bytes) =>
          if |bytes| > bfrlen then FAILED
          else if |bytes| < bfrlen then ValueRead(true, |bytes|, false, bytes + Zeros(bfrlen - |bytes|))
          else ValueRead(true, |bytes|, false, bytes)
  }

  /** What `ReadCell` delivers for each kind of field: NULL sets the flag; text
      (in a non-bytea column, or with decoding off) comes back exactly when it
      fits; decoded bytea comes back exactly when its decoding fits. */
  lemma ReadCellContents(srv: Server, decodeBinary: int, res: PgResult, row: nat, col: nat, bfrlen: nat)
    requires row < |res.rows| && col < |res.columnTypes| && col < |res.rows[row]|
    ensures var v := ReadCell(srv, decodeBinary, Some(res), row, col, bfrlen);
            && (res.rows[row][col] == SqlNull ==> v.setsNull)
            && (res.rows[row][col].Text? ==> !v.setsNull)
            && (res.rows[row][col].Text? && (res.columnTypes[col] != OID_BYTEA || decodeBinary == 0) ==>
                  var t := res.rows[row][col].text;
                  && (v.ok <==> |t| <= bfrlen)
                  && (v.ok ==> v.valueLen == |t| && v.written == t + "\0"))
            && (res.rows[row][col].Text? && res.columnTypes[col] == OID_BYTEA && decodeBinary != 0 ==>
                  var b := srv.unescapeBytea(res.rows[row][col].text);
                  && (v.ok <==> b.Some? && |b.value| <= bfrlen)
                  && (v.ok ==> v.valueLen == |b.value| && v.written[..v.valueLen] == b.value
                               && |v.written| == bfrlen))
  {
    var v := ReadCell(srv, decodeBinary, Some(res), row, col, bfrlen);
    if res.rows[row][col].Text? {
      var t := res.rows[row][col].text;
      if res.columnTypes[col] != OID_BYTEA || decodeBinary == 0 {
        if v.ok {
          assert v.written == t + "\0";
        }
      } else {
        var b := srv.unescapeBytea(t);
        if v.ok && |b.value| < bfrlen {
          assert v.written == b.value + Zeros(bfrlen - |b.value|);
        }
      }
    }
  }

  /** What reading a value needs: a cursor context's cursor, when given, holds
      a result record (the driver dereferences it). */
  predicate ContextReady(d: Driver, ctx: ResultSetContext) {
    ctx.CursorContext? && ctx.cursor.Some? ==>
      ctx.cursor.value in d.cursors && d.cursors[ctx.cursor.value].privateData.Some?
  }

  /** The result record a context designates, and the row to read: a cursor
      positioned on a row overrides the requested one. None when the context
      names no statement or cursor. */
  function Select(d: Driver, env: Env, ctx: ResultSetContext, row: int): (s: Option<(Option<ResultSetData>, int)>)
    requires ContextReady(d, ctx)
    ensures ctx.CurrentResultSet? ==> s == Some((d.ambient, row))
    ensures ctx.PreparedStatement? ==>
              (s.None? <==> env.toLower(ctx.statementName) !in d.prepared)
              && (s.Some? ==> s.value.0 == d.prepared[env.toLower(ctx.statementName)] && s.value.1 == row)
    ensures ctx.CursorContext? ==>
              (s.None? <==> ctx.cursor.None?)
              && (s.Some? ==>
                    var rs := d.cursors[ctx.cursor.value].privateData.value;
                    s.value.0 == Some(rs) && s.value.1 == (if rs.currentRowIndex != -1 then rs.currentRowIndex else row))
  {
    match ctx
    case CurrentResultSet => Some((d.ambient, row))
    case PreparedStatement(name) =>
      var n := env.toLower(name);
      if n !in d.prepared then None else Some((d.prepared[n], row))
    case CursorContext(None) => None
    case CursorContext(Some(c)) =>
      var rs := d.cursors[c].privateData.value;
      Some((Some(rs), if rs.currentRowIndex != -1 then rs.currentRowIndex else row))
  }

  /** `get_resultset_value`: fails without writing anything when the context
      designates no result record; otherwise reads the field. */
  function GetResultsetValue(d: Driver, srv: Server, env: Env, ctx: ResultSetContext,
                             row: int, col: int, bfrlen: nat): (v: ValueRead)
    requires ContextReady(d, ctx)
    ensures !v.ok ==> v == FAILED
    ensures v.setsNull ==> v.ok && v.valueLen == 0 && v.written == "\0"
    ensures v.ok ==> v.valueLen <= bfrlen
    ensures (Select(d, env, ctx, row).None? || Select(d, env, ctx, row).value.0.None?) ==> v == FAILED
    ensures Select(d, env, ctx, row).Some? && Select(d, env, ctx, row).value.0.Some? ==>
              var (wk, row') := Select(d, env, ctx, row).value;
              v == ReadCell(srv, d.decodeBinary, wk.value.resultset, row', col, bfrlen)
  {
    match Select(d, env, ctx, row)
    case None => FAILED
    case Some((wk, row')) =>
      match wk
      case None => FAILED
      case Some(rs) => ReadCell(srv, d.decodeBinary, rs.resultset, row', col, bfrlen)
  }

  /** `move_to_first_record`: the empty name designates the ambient slot. The
      call only checks that the designated result exists and reports rows;
      it moves nothing and touches no other state than the error record. */
  function MoveToFirstRecord(d: Driver, env: Env, name: string): (r: (bool, Driver))
    ensures r.1 == d.(err := r.1.err)
    ensures r.0 ==> r.1 == d
    ensures var n := env.toLower(name);
            var wk := if n == "" then Some(d.ambient) else if n in d.prepared then Some(d.prepared[n]) else None;
            && (r.0 <==> (wk.Some? && wk.value.Some? && wk.value.value.resultset.Some?
                          && NumRows(wk.value.value.resultset) > 0))
            && (!r.0 && wk.Some? && wk.value.Some? && wk.value.value.resultset.Some? ==>
                  r.1.err == ErrorRecord(Engine(NoData), "No data", "02000"))
            && (!r.0 && !(wk.Some? && wk.value.Some? && wk.value.value.resultset.Some?) ==>
                  r.1.err == ErrorRecord(Engine(MoveToFirstFailed), "Invalid statement reference", "HY000"))
  {
    var n := env.toLower(name);
    var sel := if n == "" then Some(d.ambient) else if n in d.prepared then Some(d.prepared[n]) else None;
    match sel
    case None => (false, SetError(d, Engine(MoveToFirstFailed), "HY000", "Invalid statement reference"))
    case Some(wk) =>
      if wk.None? || wk.value.resultset.None? then
        (false, SetError(d, Engine(MoveToFirstFailed), "HY000", "Invalid statement reference"))
      else if NumRows(wk.value.resultset) <= 0 then
        (false, SetError(d, Engine(NoData), "02000", "No data"))
      else (true, d)
  }

  /** A freshly prepared statement has no result yet, so it cannot be
      positioned until it has been executed. */
  lemma PreparedBeforeExecution(d: Driver, env: Env, name: string)
    requires env.toLower(name) != "" && env.toLower(name) in d.prepared
    requires d.prepared[env.toLower(name)] == None
    ensures var r := MoveToFirstRecord(d, env, name);
            !r.0 && r.1.err.rc == Engine(MoveToFirstFailed) && r.1.err.state == "HY000"
  {
  }

  /** `get_num_fields`: -1 without a result record, otherwise the column count
      (libpq reports 0 for a null result). */
  function GetNumFields(d: Driver, crsr: Option<CursorRef>): (n: int)
    requires ValidCursor(d, crsr)
    ensures n >= -1
    ensures n == -1 <==> (if crsr.Some? then d.cursors[crsr.value].privateData else d.ambient).None?
  {
    var wk := if crsr.Some? then d.cursors[crsr.value].privateData else d.ambient;
    match wk
    case None => -1
    case Some(rs) => if rs.resultset.None? then 0 else |rs.resultset.value.columnTypes|
  }
}
